=== FILE: README.md ===
# Ressa dark-web monitoring and translation sync: a Dafny model

This project models the deterministic core of four parts of the OpenCTI fork:

- **The translation synchroniser** (`opencti-front/script/translate-with-zai.js`).
  - Compares the English catalogue with the last baseline snapshot (`findDifferences`).
  - Selects the keys that need translating, with or without a baseline.
  - Splits them into batches of 100 and merges the backend's answers, or the English text when a batch fails.
  - Merges the result into the Persian catalogue with `Object.assign`, then deletes the keys the English catalogue no longer has.
  - Names the baseline file `<parent>-<name>.json`.
  - Strips Markdown code fences from the backend's reply.
- **The dashboard data hook** (`useRessaDWMData.ts`).
  - Domain normalisation and counting.
  - The top-five lists and their fallbacks.
  - The monitored-sources chart.
  - `calculateChange`.
  - The trend series.
- **The search filter sidebar** (`FilterSidebar.tsx`).
  - Derived labels.
  - The case-insensitive group search.
  - The tri-state "Select All" box and its change forwarding.
  - The expanded-group map.
- **The Telegram chat view** (`ChatInterface.tsx`).
  - `formatTime` buckets.
  - Channel and message rows.
  - The channel ordering and the default selection.

## How the model is built

- **Values.** JavaScript objects used as dictionaries are `Catalog.Dict`: a map paired with its key insertion order. Arrays are sequences. `Array.prototype.sort` is the stable insertion sort `Sorting.Sort`, which takes the program's comparator.
- **Side effects.** The translation backend is a function parameter `Backend = Dict -> Option<Dict>`, where `None` is a failed request or unparsable reply. File reads are the `FileRead` datatype (missing, corrupt or parsed). The current time and per-channel request outcomes are parameters.
- **Concurrency.** The four concurrent workers of `runBatches` are modelled as a fold over the batches in index order. The lemma `RunBatchesIndependentOfBatchSize` shows that, for a backend that translates each entry on its own, the batch size does not affect the result. The order in which concurrent workers finish is not modelled.

Two behaviours of the code are easy to miss, and the model keeps both:

- **Pruning.** The prune step (commented "Remove keys that no longer exist", translate-with-zai.js:255-260) runs only when some key is selected. `translateFile` returns as soon as no key is selected (translate-with-zai.js:236-239), before the merge, the prune and both writes. So a key dropped from the English catalogue stays in the Persian file until some other key needs translating, and the baseline is not refreshed either. `TranslateFile` models this and `ScenarioNothingSelectedSkipsPrune` exhibits it.
- **Scheme stripping.** The domain normalisation strips one scheme and then one `www.`, both case-sensitively (useRessaDWMData.ts:208-212). `UpperCaseWwwKept` shows that `WWW.` survives as `www.`.

## Model

| member | source | states |
|---|---|---|
| TranslateSync.FindDifferences | opencti-platform/opencti-front/script/translate-with-zai.js:115-137 | new keys are exactly those only in the current catalogue, changed keys those in both with different text, removed keys those only in the baseline; each list is duplicate-free and follows its catalogue's key order |
| TranslateSync.DifferencesAreDisjoint | opencti-platform/opencti-front/script/translate-with-zai.js:115-137 | no key is in two of the three lists |
| TranslateSync.FindDifferencesIdempotent | opencti-platform/opencti-front/script/translate-with-zai.js:121-134 | comparing a catalogue with itself finds no new, changed or removed key |
| TranslateSync.SelectWithoutBaseline | opencti-platform/opencti-front/script/translate-with-zai.js:221-234 | without a baseline a key is selected iff it is missing from the Persian catalogue or its Persian text equals the English; the selection is duplicate-free and in English order |
| TranslateSync.SelectWithBaseline | opencti-platform/opencti-front/script/translate-with-zai.js:198-220 | with a baseline a key is selected iff it is new, changed, or present in the Persian catalogue with the English text; duplicate-free, in English order |
| TranslateSync.KeysToTranslate | opencti-platform/opencti-front/script/translate-with-zai.js:198-234 | with a baseline, a key is selected iff it is an English key that is new, changed since the baseline, or whose Persian text equals the English; without one, iff it is an English key missing from the Persian catalogue or whose Persian text equals the English; every key once, in English order |
| TranslateSync.TranslatedKeyNotSelectedWithoutBaseline | opencti-platform/opencti-front/script/translate-with-zai.js:223-233 | a key whose Persian text differs from the English is never re-sent on the no-baseline path |
| TranslateSync.UnchangedMissingKeyNotSelectedWithBaseline | opencti-platform/opencti-front/script/translate-with-zai.js:206-220 | with a baseline, an unchanged key missing from the Persian catalogue is not selected |
| TranslateSync.NewKeySelectedOnce | opencti-platform/opencti-front/script/translate-with-zai.js:206-233 | a key new to both the baseline and the Persian catalogue is selected exactly once |
| TranslateSync.UnchangedSourceSelectsOnlyCopies | opencti-platform/opencti-front/script/translate-with-zai.js:198-220 | when the baseline equals the English catalogue, exactly the keys whose Persian text still equals the English are selected |
| TranslateSync.Chunks | opencti-platform/opencti-front/script/translate-with-zai.js:74-81 | the batches concatenate back to the selected keys, none is empty or larger than the batch size, and all but the last are full |
| TranslateSync.MakeBatch | opencti-platform/opencti-front/script/translate-with-zai.js:76-79 | a batch holds exactly its chunk's keys with their English text, in chunk order |
| TranslateSync.BatchResult | opencti-platform/opencti-front/script/translate-with-zai.js:91-102 | a failed batch contributes its own English entries, a successful one the backend's answer |
| TranslateSync.MergeBatchesKeys | opencti-platform/opencti-front/script/translate-with-zai.js:85-103 | a backend that answers only keys it was sent adds no other key; one that answers every key it was sent leaves no batch key missing |
| TranslateSync.MergeBatchesUntouched | opencti-platform/opencti-front/script/translate-with-zai.js:85-103 | an entry of the accumulated results whose key is in no batch keeps its value |
| TranslateSync.MergeBatchesFromChunk | opencti-platform/opencti-front/script/translate-with-zai.js:88-103 | a key of batch i ends up with the value batch i produced for it, since batches have disjoint keys |
| TranslateSync.MergeBatches | opencti-platform/opencti-front/script/translate-with-zai.js:85-103 | merging the batch results into the accumulated results keeps a well-formed object: every key held is listed once in key order |
| TranslateSync.RunBatchesKeys | opencti-platform/opencti-front/script/translate-with-zai.js:66-110 | the translated keys are among the selected keys and, for a backend that answers every key, include all of them |
| TranslateSync.RunBatchesFailedBatchKeepsSource | opencti-platform/opencti-front/script/translate-with-zai.js:96-102 | every key of a failed batch is carried over with its English text |
| TranslateSync.MergeBatchesPointwise | opencti-platform/opencti-front/script/translate-with-zai.js:85-103 | with a per-entry translator, merging the batches equals translating the concatenated keys directly |
| TranslateSync.RunBatchesIndependentOfBatchSize | opencti-platform/opencti-front/script/translate-with-zai.js:74-109 | with a per-entry translator the result is the same for every batch size |
| TranslateSync.RunBatches | opencti-platform/opencti-front/script/translate-with-zai.js:66-110 | the result is a well-formed object, and with no keys to translate it is the empty object `{}` |
| TranslateSync.TranslateFile | opencti-platform/opencti-front/script/translate-with-zai.js:142-285 | the run fails iff the English file is missing or corrupt; it writes iff some key is selected; the written catalogue has the translations merged over the Persian text, restricted to English keys; the baseline written is the English catalogue under the derived name |
| TranslateSync.FirstRunCoversSource | opencti-platform/opencti-front/script/translate-with-zai.js:221-260 | on a first run with a complete backend the written Persian catalogue has exactly the English keys |
| TranslateSync.TranslatedUnchangedKeyKept | opencti-platform/opencti-front/script/translate-with-zai.js:206-260 | with a baseline, an unchanged key that is already translated keeps its Persian text |
| TranslateSync.UnchangedRerunWritesNothing | opencti-platform/opencti-front/script/translate-with-zai.js:236-239 | re-running on an unchanged catalogue with nothing left in English writes no file |
| TranslateSync.ScenarioNewKey | opencti-platform/opencti-front/script/translate-with-zai.js:198-253 | a key added since the baseline is the only one selected and is translated by the stub backend |
| TranslateSync.ScenarioNewKeyWrites | opencti-platform/opencti-front/script/translate-with-zai.js:236-277 | in the concrete run (English `{a: Hello, b: World}`, baseline `{a: Hello}`, Persian `{a: Salaam}`), the written catalogue is `{a: Salaam, b: Donya}`, and the baseline written is the English catalogue under the name derived from its path |
| TranslateSync.ScenarioUntranslatedCopy | opencti-platform/opencti-front/script/translate-with-zai.js:228-231 | a Persian entry still equal to the English is selected again |
| TranslateSync.ScenarioNothingSelectedSkipsPrune | opencti-platform/opencti-front/script/translate-with-zai.js:236-239 | when nothing is selected the run returns early: no prune, no Persian write, no baseline write |
| Catalog.Assign | opencti-platform/opencti-front/script/translate-with-zai.js:253 | the merged keys are the union, the source's values win, other values stay, existing keys keep their place and new ones are appended in source order |
| Catalog.Prune | opencti-platform/opencti-front/script/translate-with-zai.js:256-260 | exactly the keys also present in the English catalogue remain, with unchanged values and order |
| BaselinePath.SplitLast | opencti-platform/opencti-front/script/translate-with-zai.js:162-163 | the last path component contains no slash and, with the directory, rebuilds the path |
| BaselinePath.ParentName | opencti-platform/opencti-front/script/translate-with-zai.js:162 | for a normalised path: the last component of the directory part, without a slash, or "." when the path has no directory |
| BaselinePath.FileStem | opencti-platform/opencti-front/script/translate-with-zai.js:163 | the last path component without a trailing `.json`; a component that is just `.json` stays as it is, except for the whole path `.json`, which gives the empty stem |
| BaselinePath.BaselineFileName | opencti-platform/opencti-front/script/translate-with-zai.js:161-164 | the baseline name is the parent directory's name, a dash, the file name without `.json`, and `.json` |
| BaselinePath.BaselineNameOfPath | opencti-platform/opencti-front/script/translate-with-zai.js:161-164 | for a catalogue `dir/parent/file`, the baseline is `parent-` followed by the file name without `.json` and by `.json` |
| BaselinePath.EnCatalogBaseline | opencti-platform/opencti-front/script/translate-with-zai.js:161-164 | the catalogue `parent/en.json` under any language directory gets the baseline `parent-en.json` |
| BaselinePath.FrontAndBackBaselinesDiffer | opencti-platform/opencti-front/script/translate-with-zai.js:302-310 | under any language directory, the front and back catalogues get the baselines `front-en.json` and `back-en.json` |
| BaselinePath.BaselineNamesDistinguishDirectories | opencti-platform/opencti-front/script/translate-with-zai.js:162-164 | two catalogues with the same file name in differently named directories get different baselines |
| FenceStrip.Trim | opencti-platform/opencti-front/script/translate-with-zai.js:55 | the result neither starts nor ends with whitespace and sits inside the input with only whitespace around it |
| FenceStrip.TrimIdempotent | opencti-platform/opencti-front/script/translate-with-zai.js:55 | trimming twice equals trimming once |
| FenceStrip.RemoveMarkers | opencti-platform/opencti-front/script/translate-with-zai.js:55 | the result is never longer than the input, and text without the marker's first character passes through unchanged |
| FenceStrip.CleanReply | opencti-platform/opencti-front/script/translate-with-zai.js:55 | no three consecutive backticks survive the clean-up, and a reply without backticks is only trimmed |
| FenceStrip.CleanReplyIdempotent | opencti-platform/opencti-front/script/translate-with-zai.js:55 | cleaning a cleaned reply changes nothing |
| FenceStrip.FencedReplyUnwrapped | opencti-platform/opencti-front/script/translate-with-zai.js:55 | a trimmed, backtick-free body wrapped in a `json` code block comes out exactly as the body |
| DwmData.NormaliseDomain | opencti-platform/opencti-front/src/private/components/workspaces/dashboards/ressa_dwm/useRessaDWMData.ts:208-212 | the normalised domain has no slash and no upper-case letter |
| DwmData.NormaliseUrl | opencti-platform/opencti-front/src/private/components/workspaces/dashboards/ressa_dwm/useRessaDWMData.ts:208-212 | for any scheme (none, `http://`, `https://`), optional `www.` and path, the normalised domain is the lower-case host |
| DwmData.UpperCaseWwwKept | opencti-platform/opencti-front/src/private/components/workspaces/dashboards/ressa_dwm/useRessaDWMData.ts:208-212 | an upper-case `WWW.` is not stripped and appears lower-cased in the domain |
| DwmData.NormaliseIdempotentOnDomains | opencti-platform/opencti-front/src/private/components/workspaces/dashboards/ressa_dwm/useRessaDWMData.ts:208-212 | normalising a normalised domain that does not start with `www.` gives it back |
| DwmData.DomainOf | opencti-platform/opencti-front/src/private/components/workspaces/dashboards/ressa_dwm/useRessaDWMData.ts:206-216 | a leak is counted iff its domain field is non-empty and normalises to a non-empty domain, and then under that domain |
| DwmData.AddDomain | opencti-platform/opencti-front/src/private/components/workspaces/dashboards/ressa_dwm/useRessaDWMData.ts:214-216 | one step raises the count of the leak's domain by one and leaves every other count alone |
| DwmData.CountDomains | opencti-platform/opencti-front/src/private/components/workspaces/dashboards/ressa_dwm/useRessaDWMData.ts:204-218 | the tally's key order lists each counted domain once; every counted domain is non-empty with a positive count |
| DwmData.CountDomainsCounts | opencti-platform/opencti-front/src/private/components/workspaces/dashboards/ressa_dwm/useRessaDWMData.ts:204-218 | each domain's count equals the number of leaks that normalise to it, and the tally holds exactly those domains |
| DwmData.TopFive | opencti-platform/opencti-front/src/private/components/workspaces/dashboards/ressa_dwm/useRessaDWMData.ts:221-224 | the list has five rows, or all rows when there are fewer |
| DwmData.TopFiveRanked | opencti-platform/opencti-front/src/private/components/workspaces/dashboards/ressa_dwm/useRessaDWMData.ts:156-159 | the kept rows are input rows, largest first, and no row left out is larger than a kept one |
| DwmData.LaterRowsNoLarger | opencti-platform/opencti-front/src/private/components/workspaces/dashboards/ressa_dwm/useRessaDWMData.ts:223-224 | in a largest-first list, no row after a cut is larger than a row before it |
| DwmData.ChannelCount | opencti-platform/opencti-front/src/private/components/workspaces/dashboards/ressa_dwm/useRessaDWMData.ts:142-152 | a channel has a row iff its count request succeeded; the row has the channel's display name and the reported total, or 0 |
| DwmData.ChannelCounts | opencti-platform/opencti-front/src/private/components/workspaces/dashboards/ressa_dwm/useRessaDWMData.ts:156-157 | the rows are exactly those of the channels whose request succeeded |
| DwmData.ChannelCountsOne | opencti-platform/opencti-front/src/private/components/workspaces/dashboards/ressa_dwm/useRessaDWMData.ts:142-157 | one channel gives its row (display name and `total`, or 0) when its request succeeded, and no row when it failed |
| DwmData.ChannelCountsAppend | opencti-platform/opencti-front/src/private/components/workspaces/dashboards/ressa_dwm/useRessaDWMData.ts:118-157 | the rows of two channel lists end to end are the rows of the first list followed by those of the second, so the rows follow channel order, one per counted channel |
| DwmData.FirstTen | opencti-platform/opencti-front/src/private/components/workspaces/dashboards/ressa_dwm/useRessaDWMData.ts:119 | at most ten channels are kept, the first ones, all of them when there are ten or fewer |
| DwmData.TopLeaks | opencti-platform/opencti-front/src/private/components/workspaces/dashboards/ressa_dwm/useRessaDWMData.ts:388-395 | the fixed list is shown iff no channel among the first ten was counted; otherwise the five largest counted channels, or all of them when fewer than five were counted, largest first, none left out larger |
| DwmData.TallyEntriesCount | opencti-platform/opencti-front/src/private/components/workspaces/dashboards/ressa_dwm/useRessaDWMData.ts:221-222 | every tally row names a non-empty domain with its number of leaks |
| DwmData.TopDamageableCounts | opencti-platform/opencti-front/src/private/components/workspaces/dashboards/ressa_dwm/useRessaDWMData.ts:204-224 | when no leak element throws and one leak has a domain, the count completes and the five most leaked domains are shown, or all of them when there are fewer than five, largest first, each with its number of leaks, none left out with more |
| DwmData.LeakDomains | opencti-platform/opencti-front/src/private/components/workspaces/dashboards/ressa_dwm/useRessaDWMData.ts:205-206 | the `forEach` is abandoned iff some element is `null` or has a truthy non-string domain; otherwise each leak's domain text is read |
| DwmData.TopDamageable | opencti-platform/opencti-front/src/private/components/workspaces/dashboards/ressa_dwm/useRessaDWMData.ts:396-403 | the fixed list when the leaks are missing or some element throws (the `catch` at lines 227-230 leaves the list empty); otherwise the ranking of the counted domains |
| DwmData.RankDomainsCounts | opencti-platform/opencti-front/src/private/components/workspaces/dashboards/ressa_dwm/useRessaDWMData.ts:221-224 | with one counted domain, the five most counted domains, or all of them when there are fewer than five, largest first, each with its number of leaks, none left out with more |
| DwmData.NoDomainShowsFallback | opencti-platform/opencti-front/src/private/components/workspaces/dashboards/ressa_dwm/useRessaDWMData.ts:396-403 | when no leak has a domain, the fixed list is shown |
| DwmData.SomeDomainCounted | opencti-platform/opencti-front/src/private/components/workspaces/dashboards/ressa_dwm/useRessaDWMData.ts:214-224 | one leak with a domain makes the count non-empty, so the ranking rather than the fixed list is shown |
| DwmData.SourceOf | opencti-platform/opencti-front/src/private/components/workspaces/dashboards/ressa_dwm/useRessaDWMData.ts:307-314 | an entry is shown iff its key is a known source and its value is a positive number, with that source's label and colour |
| DwmData.MonitoredSources | opencti-platform/opencti-front/src/private/components/workspaces/dashboards/ressa_dwm/useRessaDWMData.ts:307-314 | every shown slice is positive and the slices are exactly those of the kept entries |
| DwmData.MonitoredSourcesOne | opencti-platform/opencti-front/src/private/components/workspaces/dashboards/ressa_dwm/useRessaDWMData.ts:307-314 | one entry gives its source's slice when it is kept, and nothing when it is dropped |
| DwmData.MonitoredSourcesAppend | opencti-platform/opencti-front/src/private/components/workspaces/dashboards/ressa_dwm/useRessaDWMData.ts:307-314 | the slices of two runs of entries end to end are those of the first run followed by those of the second, so the slices follow entry order, one per kept entry |
| DwmData.SourcesChart | opencti-platform/opencti-front/src/private/components/workspaces/dashboards/ressa_dwm/useRessaDWMData.ts:381-387 | the monitored sources, or else the Web, Dark Web and Telegram totals with missing counts as 0 |
| DwmData.SourcesFallbackExactly | opencti-platform/opencti-front/src/private/components/workspaces/dashboards/ressa_dwm/useRessaDWMData.ts:307-314 | the fallback is used iff no known source has a positive number |
| DwmData.SourceStyle | opencti-platform/opencti-front/src/private/components/workspaces/dashboards/ressa_dwm/useRessaDWMData.ts:294-305 | exactly the ten listed keys have a style; website, dark-web and telegram have the labels and colours the map gives them |
| DwmData.Read | opencti-platform/opencti-front/src/private/components/workspaces/dashboards/ressa_dwm/useRessaDWMData.ts:334-335 | a non-zero reading under the key wins, else the `Count` key's reading, else 0 |
| DwmData.ChangeBetween | opencti-platform/opencti-front/src/private/components/workspaces/dashboards/ressa_dwm/useRessaDWMData.ts:343-348 | from a zero reading any rise is 100% and no rise 0%; otherwise the rounded ratio |
| DwmData.CalculateChange | opencti-platform/opencti-front/src/private/components/workspaces/dashboards/ressa_dwm/useRessaDWMData.ts:318-352 | 0% without two array points or when either of the last two is `null`; otherwise the change between their readings |
| DwmData.ChangeUsesLastTwoPoints | opencti-platform/opencti-front/src/private/components/workspaces/dashboards/ressa_dwm/useRessaDWMData.ts:326-327 | series with the same last two points give the same change whatever the card's value |
| DwmData.Reading | opencti-platform/opencti-front/src/private/components/workspaces/dashboards/ressa_dwm/useRessaDWMData.ts:332-341 | with a non-empty source key, that source's reading; otherwise the sum of the dark-web, telegram, website and forum readings |
| DwmData.TrendName | opencti-platform/opencti-front/src/private/components/workspaces/dashboards/ressa_dwm/useRessaDWMData.ts:287 | `dark-web` is "Dark Web", `website` is "Web", any other key is capitalised |
| DwmData.PointValue | opencti-platform/opencti-front/src/private/components/workspaces/dashboards/ressa_dwm/useRessaDWMData.ts:279-283 | the key's own non-zero value wins, else that of `<key>Count`, else that of the key with its first `-` made `_`, else with it removed, else 0 |
| DwmData.FirstNonZero | opencti-platform/opencti-front/src/private/components/workspaces/dashboards/ressa_dwm/useRessaDWMData.ts:279-283 | a non-zero result is the value of the first listed key holding a non-zero value; 0 iff no listed key does |
| DwmData.FirstTruthyWins | opencti-platform/opencti-front/src/private/components/workspaces/dashboards/ressa_dwm/useRessaDWMData.ts:279-283 | when key i is the first listed key with a non-zero value, the result is its value |
| DwmData.PointValueIsOrChain | opencti-platform/opencti-front/src/private/components/workspaces/dashboards/ressa_dwm/useRessaDWMData.ts:279-283 | the point value equals the literal `a || b || c || d || 0` chain of the four lookups |
| DwmData.ExtractTrend | opencti-platform/opencti-front/src/private/components/workspaces/dashboards/ressa_dwm/useRessaDWMData.ts:256-291 | extraction throws iff the data is an array with a `null` point; otherwise the series has the key's name and colour; for an array it has one value per point, that point's reading of the key; for an object keyed by source it is `obj[key] || obj[key + 'Count']` when that is an array, and empty otherwise |
| DwmData.SeriesTrend | opencti-platform/opencti-front/src/private/components/workspaces/dashboards/ressa_dwm/useRessaDWMData.ts:277-290 | for an array without `null`, value i is the reading of point i |
| DwmData.TrendChart | opencti-platform/opencti-front/src/private/components/workspaces/dashboards/ressa_dwm/useRessaDWMData.ts:404-417 | `None` iff the data is an array with a `null` point; otherwise the series in the order Dark Web, Telegram, Web, keeping exactly those with data |
| DwmData.FullSeriesShowsAllTrends | opencti-platform/opencti-front/src/private/components/workspaces/dashboards/ressa_dwm/useRessaDWMData.ts:404-417 | for a non-empty array without `null`, all three series appear, in the order Dark Web, Telegram, Web, each with one value per point |
| FilterSidebar.GetFilterLabel | opencti-platform/opencti-front/src/private/components/ressa_search/FilterSidebar.tsx:62-73 | the seven mapped keys get their fixed labels; any other key keeps its length, its first character is upper-cased and every later `_` becomes a space |
| FilterSidebar.DerivedLabelDeterminesKey | opencti-platform/opencti-front/src/private/components/ressa_search/FilterSidebar.tsx:72 | two unmapped keys that begin with a non-upper-case character, contain no space and share a label are equal |
| FilterSidebar.FilteredFilters | opencti-platform/opencti-front/src/private/components/ressa_search/FilterSidebar.tsx:75-79 | the shown groups are, in order, exactly those whose label or some value contains the search ignoring case, or all when the search is empty |
| FilterSidebar.EmptySearchKeepsAll | opencti-platform/opencti-front/src/private/components/ressa_search/FilterSidebar.tsx:75-76 | an empty search shows every group |
| FilterSidebar.SearchIgnoresCase | opencti-platform/opencti-front/src/private/components/ressa_search/FilterSidebar.tsx:77-78 | a search and its lower-cased form show the same groups |
| FilterSidebar.LongerSearchNarrows | opencti-platform/opencti-front/src/private/components/ressa_search/FilterSidebar.tsx:75-79 | extending the search shows a subsequence of the groups shown before |
| FilterSidebar.AllChecked | opencti-platform/opencti-front/src/private/components/ressa_search/FilterSidebar.tsx:193 | true iff every value is checked |
| FilterSidebar.AnyChecked | opencti-platform/opencti-front/src/private/components/ressa_search/FilterSidebar.tsx:195 | true iff some value is checked |
| FilterSidebar.SelectAllBox | opencti-platform/opencti-front/src/private/components/ressa_search/FilterSidebar.tsx:188-197 | no box for a group without values; otherwise checked iff all values are, indeterminate iff some but not all are, never both |
| FilterSidebar.FilterToggle | opencti-platform/opencti-front/src/private/components/ressa_search/FilterSidebar.tsx:56-60 | a change is forwarded iff a callback was given |
| FilterSidebar.SelectAllChanges | opencti-platform/opencti-front/src/private/components/ressa_search/FilterSidebar.tsx:198-202 | one change per value, in order, all with the box's new state; nothing without a callback |
| FilterSidebar.InitialExpanded | opencti-platform/opencti-front/src/private/components/ressa_search/FilterSidebar.tsx:42-47 | the initial map has exactly the groups' keys |
| FilterSidebar.InitialExpandedLastWins | opencti-platform/opencti-front/src/private/components/ressa_search/FilterSidebar.tsx:43-46 | a key holds the `expanded` flag of the last group with that key |
| FilterSidebar.ToggleGroup | opencti-platform/opencti-front/src/private/components/ressa_search/FilterSidebar.tsx:49-54 | the toggled group's flag is negated (unset becomes expanded); every other entry is unchanged |
| FilterSidebar.ToggleTwice | opencti-platform/opencti-front/src/private/components/ressa_search/FilterSidebar.tsx:49-54 | toggling twice shows every group as before, and restores the map when the key was set |
| Telegram.ChannelName | opencti-platform/opencti-front/src/private/components/workspaces/dashboards/ressa_dwm/ChatInterface.tsx:93 | the title if non-empty, else the username if non-empty, else "Unknown"; never empty |
| ChatInterface.FormatTime | opencti-platform/opencti-front/src/private/components/workspaces/dashboards/ressa_dwm/ChatInterface.tsx:41-54 | under a minute (including future dates) is "just now"; otherwise minutes below an hour, hours below a day, days below a week, else the date, each count being the floor of the difference over its unit |
| ChatInterface.ChannelAvatar | opencti-platform/opencti-front/src/private/components/workspaces/dashboards/ressa_dwm/ChatInterface.tsx:94 | one character: the upper-cased first Unicode character of a non-empty title, else "?" |
| ChatInterface.ToChatItem | opencti-platform/opencti-front/src/private/components/workspaces/dashboards/ressa_dwm/ChatInterface.tsx:91-100 | the row keeps the channel's id, name and avatar; its preview is the last message's content, or "" without one; it has a time iff the channel has a last-message date, and that time is the date's relative time |
| ChatInterface.DateOrder | opencti-platform/opencti-front/src/private/components/workspaces/dashboards/ressa_dwm/ChatInterface.tsx:103-110 | negative iff the first channel is dated and the second undated or older; zero iff both dates are equal or both missing |
| ChatInterface.ChannelList | opencti-platform/opencti-front/src/private/components/workspaces/dashboards/ressa_dwm/ChatInterface.tsx:91-112 | the list holds exactly the channel rows, one per channel, in some order |
| ChatInterface.ChannelOrderConsistent | opencti-platform/opencti-front/src/private/components/workspaces/dashboards/ressa_dwm/ChatInterface.tsx:103-110 | the channel comparator is antisymmetric and transitive |
| ChatInterface.FirstDateOwn | opencti-platform/opencti-front/src/private/components/workspaces/dashboards/ressa_dwm/ChatInterface.tsx:104-105 | with distinct ids, looking a row up by its id finds its own date |
| ChatInterface.SortedByDate | opencti-platform/opencti-front/src/private/components/workspaces/dashboards/ressa_dwm/ChatInterface.tsx:103-110 | for channels with distinct ids, after sorting, dated channels come before undated ones, newest first |
| ChatInterface.ChannelListOrdered | opencti-platform/opencti-front/src/private/components/workspaces/dashboards/ressa_dwm/ChatInterface.tsx:91-112 | for channels with distinct ids, the channel list is a permutation of the channel rows, dated first and newest first |
| ChatInterface.DefaultSelection | opencti-platform/opencti-front/src/private/components/workspaces/dashboards/ressa_dwm/ChatInterface.tsx:115-118 | with nothing selected and a non-empty list the first row is selected; otherwise the selection is unchanged |
| ChatInterface.DefaultIsNewest | opencti-platform/opencti-front/src/private/components/workspaces/dashboards/ressa_dwm/ChatInterface.tsx:103-118 | for channels with distinct ids of which some is dated, the default selection is a channel with the newest date |
| ChatInterface.ToMessageItem | opencti-platform/opencti-front/src/private/components/workspaces/dashboards/ressa_dwm/ChatInterface.tsx:181-189 | the id falls back to the position, the sender to the channel name, the text to ""; the avatar is the upper-cased first Unicode character of the title, else of the username, else "?"; there is a time iff the message has a date |
| ChatInterface.MessageList | opencti-platform/opencti-front/src/private/components/workspaces/dashboards/ressa_dwm/ChatInterface.tsx:181-195 | one row per message, in the server's order: the always-tied comparator leaves the list as it is |
| Sorting.Sort | opencti-platform/opencti-front/src/private/components/workspaces/dashboards/ressa_dwm/ChatInterface.tsx:103-110 | `Array.prototype.sort` as a stable insertion sort: the result is a permutation of the input |
| Sorting.SortIsSorted | opencti-platform/opencti-front/src/private/components/workspaces/dashboards/ressa_dwm/useRessaDWMData.ts:221-224 | for a consistent comparator the sorted list is in order and a permutation of the input |
| Sorting.SortWithTiesOnlyIsIdentity | opencti-platform/opencti-front/src/private/components/workspaces/dashboards/ressa_dwm/ChatInterface.tsx:192-195 | a comparator that ties everything leaves the list unchanged |

## Left out

- Network access (`fetch`, GraphQL, the translation API) is not modelled; its outcomes are parameters. This includes HTTP status, JSON parsing of responses and `console` logging.
- File system access (`existsSync`, `readFileSync`, `writeFileSync`, `mkdirSync`) is reduced to the `FileRead` values and the `SyncOutcome` writes. Partial writes are not modelled.
- `JSON.parse` and `JSON.stringify` are not modelled: a reply is either a catalogue or a failure. The prompt text, the model name and the temperature are not modelled.
- Concurrency: the four workers of `runBatches` and the two parallel `translateFile` calls of `main` run in a fixed order, batch by batch. Batches have disjoint keys, so each key's value comes from its own batch (`MergeBatchesFromChunk`), but no lemma states independence from the order in which workers finish. `RunBatchesIndependentOfBatchSize` covers the batch size only. Only sequential runs of `main` are covered.
- `main`, `translateBatch`'s client call, and the React rendering, state hooks and i18n lookups are not modelled. `t_i18n` strings become the constructors of `RelTime`.
- Date parsing and `toLocaleDateString` are not modelled. Dates are millisecond integers, a falsy date (missing or empty) is `None`, `FormatTime` gets an `Instant` that may be invalid, and the absolute form is left unformatted. Channel sorting assumes valid dates, because a `NaN` comparator result is not modelled.
- Case mapping is ASCII only: `toUpperCase`/`toLowerCase` on other letters (which may change length) are not modelled.
- Inherited object properties (`labelMap["constructor"]`, `monitoredSourcesMap["toString"]`) are not modelled: lookups see only the listed keys.
- JavaScript's integer-like key ordering in `Object.entries` is not modelled: keys keep insertion order.
- DwmData.ChangeBetween: the floating-point division and `Math.round` are left uninterpreted as `RoundedRatio(recent, previous)`.
- DwmData.Read: readings are integers. Non-number values stored in a data point, and `null` inside the four-source sum, are not modelled.
- DwmData.NormaliseUrl: a scheme-less host literally `http:` or `https:` followed by a path is excluded. A second scheme would then appear, which the code strips only once.
- DwmData.ExtractTrend: for an object keyed by source, the stored column is returned as it is, and `null` readings inside it are not inspected.
- DwmData.SourceOf: values are integers, so a fractional number that `typeof value === 'number'` accepts and `> 0` keeps (0.5, say) is not representable; the same holds for DwmData.MonitoredSources and DwmData.SourcesChart, including the `|| 0` totals.
- DwmData.TopLeaks: message counts are integers; a non-number `total` is not modelled.
- ChatInterface.ChannelAvatar: strings are sequences of Unicode characters, not UTF-16 code units. `charAt(0)` takes one code unit, so for a title whose first character lies outside the Basic Multilingual Plane (an emoji such as U+1F525) the program shows the lone high surrogate and the model the whole character.
- ChatInterface.ToMessageItem: message ids are strings; `toString` of a numeric id is not modelled. The avatar has the same difference as ChatInterface.ChannelAvatar: for a title or username that starts with a character outside the Basic Multilingual Plane, the program shows half a surrogate pair and the model the whole character.
- ChatInterface.SortedByDate, ChatInterface.ChannelListOrdered and ChatInterface.DefaultIsNewest assume distinct channel ids. The comparator looks a row's date up by id (`channels.find`, ChatInterface.tsx:104-105), so with a repeated id both rows are compared by the first one's date, and the order is not promised.

=== FILE: base.dfy ===
/** Small shared vocabulary: optional values, sequence helpers and the
    string operations the modelled JavaScript/TypeScript code relies on. */
module Wrappers {

  /** A value that may be missing: `null`/`undefined` in the modelled code. */
  datatype Option<+T> = None | Some(value: T) {

    /** The value, or `default` when there is none (JavaScript's `x ?? d`). */
    function GetOr(default: T): T {
      match this
      case Some(v) => v
      case None => default
    }
  }
}

module Seqs {
  import opened Wrappers

  /** No element occurs twice. */
  predicate NoDuplicates<T(==)>(s: seq<T>) {
    forall i, j :: 0 <= i < j < |s| ==> s[i] != s[j]
  }

  /** `sub` is `s` with some elements left out and the others in their original order. */
  ghost predicate SubsequenceOf<T>(sub: seq<T>, s: seq<T>)
    decreases |s|
  {
    if sub == [] then true
    else if s == [] then false
    else (sub[0] == s[0] && SubsequenceOf(sub[1..], s[1..])) || SubsequenceOf(sub, s[1..])
  }

  /** Every element of a subsequence is an element of the sequence. */
  lemma {:induction false} SubsequenceMembers<T>(sub: seq<T>, s: seq<T>)
    requires SubsequenceOf(sub, s)
    ensures forall x :: x in sub ==> x in s
    decreases |s|
  {
    if sub != [] && s != [] {
      if sub[0] == s[0] && SubsequenceOf(sub[1..], s[1..]) {
        SubsequenceMembers(sub[1..], s[1..]);
        assert sub == [sub[0]] + sub[1..];
      } else {
        SubsequenceMembers(sub, s[1..]);
      }
    }
  }

  /** Keeps the elements that satisfy `p`, in order: JavaScript's `Array.prototype.filter`. */
  function Filter<T(==,!new)>(s: seq<T>, p: T -> bool): (r: seq<T>)
    ensures |r| <= |s|
    ensures forall x :: x in r <==> x in s && p(x)
    ensures SubsequenceOf(r, s)
    ensures NoDuplicates(s) ==> NoDuplicates(r)
  {
    if s == [] then []
    else if p(s[0]) then [s[0]] + Filter(s[1..], p)
    else Filter(s[1..], p)
  }

  /** Filtering with a test every element passes changes nothing. */
  lemma {:induction false} FilterKeepsAll<T(!new)>(s: seq<T>, p: T -> bool)
    requires forall i :: 0 <= i < |s| ==> p(s[i])
    ensures Filter(s, p) == s
  {
    if s != [] {
      FilterKeepsAll(s[1..], p);
    }
  }

  /** Filtering with a test that two tests agree on gives the same result. */
  lemma {:induction false} FilterSameTest<T(!new)>(s: seq<T>, p: T -> bool, q: T -> bool)
    requires forall x :: p(x) == q(x)
    ensures Filter(s, p) == Filter(s, q)
  {
    if s != [] {
      FilterSameTest(s[1..], p, q);
    }
  }

  /** Filtering with a stricter test keeps a subsequence of what the looser test keeps. */
  lemma {:induction false} FilterStricter<T(!new)>(s: seq<T>, p: T -> bool, q: T -> bool)
    requires forall x :: p(x) ==> q(x)
    ensures SubsequenceOf(Filter(s, p), Filter(s, q))
  {
    if s != [] {
      FilterStricter(s[1..], p, q);
      var a, b := Filter(s[1..], p), Filter(s[1..], q);
      if p(s[0]) {
        assert ([s[0]] + a)[1..] == a && ([s[0]] + b)[1..] == b;
      } else if q(s[0]) && a != [] {
        assert ([s[0]] + b)[1..] == b;
      }
    }
  }

  /** Maps every element to an optional value and keeps the values that are
      present, in order: `xs.map(f).filter(x => x !== null)`. */
  function FilterMap<A, B>(s: seq<A>, f: A -> Option<B>): (r: seq<B>)
    ensures |r| <= |s|
  {
    if s == [] then []
    else
      match f(s[0])
      case None => FilterMap(s[1..], f)
      case Some(y) => [y] + FilterMap(s[1..], f)
  }

  /** A value is kept iff some element maps to it. */
  lemma {:induction false} FilterMapMembers<A, B>(s: seq<A>, f: A -> Option<B>)
    ensures forall y :: y in FilterMap(s, f) <==> exists x :: x in s && f(x) == Some(y)
  {
    if s != [] {
      FilterMapMembers(s[1..], f);
      assert forall x :: x in s <==> x == s[0] || x in s[1..];
    }
  }

  /** Mapping two runs end to end keeps the values of the first run, then those of the second. */
  lemma {:induction false} FilterMapAppend<A, B>(a: seq<A>, b: seq<A>, f: A -> Option<B>)
    ensures FilterMap(a + b, f) == FilterMap(a, f) + FilterMap(b, f)
  {
    if a == [] {
      assert a + b == b;
    } else {
      assert (a + b)[0] == a[0] && (a + b)[1..] == a[1..] + b;
      FilterMapAppend(a[1..], b, f);
    }
  }

  /** A non-empty sequence contains its first element. */
  lemma HeadIsMember<T>(s: seq<T>)
    ensures s != [] ==> s[0] in s
  {
  }

  /** Joins a sequence of sequences end to end. */
  function Flatten<T>(ss: seq<seq<T>>): seq<T> {
    if ss == [] then [] else ss[0] + Flatten(ss[1..])
  }

  /** An element of a duplicate-free sequence occurs in it exactly once. */
  lemma {:induction false} NoDuplicatesOccursOnce<T>(s: seq<T>, x: T)
    requires NoDuplicates(s) && x in s
    ensures multiset(s)[x] == 1
  {
    if s[0] == x {
      assert x !in s[1..];
      assert s == [s[0]] + s[1..];
    } else {
      NoDuplicatesOccursOnce(s[1..], x);
      assert s == [s[0]] + s[1..];
    }
  }
}

module Text {
  import opened Wrappers

  /** ASCII upper case to lower case; every other character is left alone. */
  function LowerChar(c: char): char {
    if 'A' <= c <= 'Z' then (c as int - 'A' as int + 'a' as int) as char else c
  }

  /** ASCII lower case to upper case; every other character is left alone. */
  function UpperChar(c: char): char {
    if 'a' <= c <= 'z' then (c as int - 'a' as int + 'A' as int) as char else c
  }

  predicate IsUpper(c: char) { 'A' <= c <= 'Z' }

  /** `String.prototype.toLowerCase`, restricted to ASCII letters. */
  function Lower(s: string): (r: string)
    ensures |r| == |s|
    ensures forall i :: 0 <= i < |s| ==> r[i] == LowerChar(s[i]) && !IsUpper(r[i])
  {
    seq(|s|, i requires 0 <= i < |s| => LowerChar(s[i]))
  }

  /** Lower-casing text without upper-case letters changes nothing. */
  lemma LowerOfLower(s: string)
    requires forall i :: 0 <= i < |s| ==> !IsUpper(s[i])
    ensures Lower(s) == s
  {
  }

  /** Lower-casing works character by character, so it distributes over `+`. */
  lemma LowerAppend(a: string, b: string)
    ensures Lower(a + b) == Lower(a) + Lower(b)
  {
    assert forall i :: 0 <= i < |a + b| ==> Lower(a + b)[i] == (Lower(a) + Lower(b))[i];
  }

  predicate StartsWith(s: string, prefix: string) {
    |prefix| <= |s| && s[..|prefix|] == prefix
  }

  predicate EndsWith(s: string, suffix: string) {
    |suffix| <= |s| && s[|s| - |suffix|..] == suffix
  }

  /** `s.includes(sub)`: `sub` occurs somewhere in `s` (the empty string occurs everywhere). */
  predicate Contains(s: string, sub: string)
    decreases |s|
  {
    StartsWith(s, sub) || (s != [] && Contains(s[1..], sub))
  }

  /** Text containing `a + b` contains `a`. */
  lemma {:induction false} ContainsPrefixOf(s: string, a: string, b: string)
    requires Contains(s, a + b)
    ensures Contains(s, a)
    decreases |s|
  {
    if StartsWith(s, a + b) {
      assert s[..|a|] == (a + b)[..|a|] == a;
    } else {
      ContainsPrefixOf(s[1..], a, b);
    }
  }

  /** `s.charAt(0).toUpperCase() + s.slice(1)`. */
  function Capitalise(s: string): (r: string)
    ensures |r| == |s|
    ensures s != [] ==> r[0] == UpperChar(s[0]) && r[1..] == s[1..]
  {
    if s == [] then [] else [UpperChar(s[0])] + s[1..]
  }

  /** Every occurrence of `from` replaced by `to`. */
  function ReplaceChar(s: string, from: char, to: char): (r: string)
    ensures |r| == |s|
    ensures forall i :: 0 <= i < |s| ==> r[i] == (if s[i] == from then to else s[i])
  {
    seq(|s|, i requires 0 <= i < |s| => if s[i] == from then to else s[i])
  }

  /** Position of the first `c` in `s`, or `|s|` when there is none. */
  function IndexOf(s: string, c: char): (i: nat)
    ensures i <= |s|
    ensures i < |s| ==> s[i] == c
    ensures c !in s[..i]
  {
    if s == [] then 0
    else if s[0] == c then 0
    else (assert s[..1 + IndexOf(s[1..], c)] == [s[0]] + s[1..][..IndexOf(s[1..], c)]; 1 + IndexOf(s[1..], c))
  }

  /** `s.replace(from, to)` with a one-character string pattern: only the first occurrence is replaced. */
  function ReplaceFirst(s: string, from: char, to: string): string {
    var i := IndexOf(s, from);
    if i == |s| then s else s[..i] + to + s[i + 1..]
  }

  /** The decimal digit for `d`. */
  function DigitChar(d: nat): char
    requires d < 10
  {
    ('0' as int + d) as char
  }

  /** `n.toString()` for a non-negative integer: its decimal digits, most significant first. */
  function NatToString(n: nat): (r: string)
    ensures 1 <= |r|
    ensures forall i :: 0 <= i < |r| ==> '0' <= r[i] <= '9'
    ensures |r| > 1 ==> r[0] != '0'
  {
    if n < 10 then [DigitChar(n)] else NatToString(n / 10) + [DigitChar(n % 10)]
  }

  /** `value || fallback` for an optional string: missing and empty strings are both falsy. */
  function OrElse(value: Option<string>, fallback: string): (r: string)
    ensures value.Some? && value.value != [] ==> r == value.value
    ensures (value.None? || value.value == []) ==> r == fallback
  {
    if value.Some? && value.value != [] then value.value else fallback
  }
}

=== FILE: catalog.dfy ===
/** A message catalogue as the translation script sees it: a plain JavaScript
    object from message key to text. Objects remember the order in which
    their keys were first added, so a catalogue is a map paired with that
    key order. */
module Catalog {
  import opened Seqs

  datatype Dict = Dict(order: seq<string>, entries: map<string, string>)

  /** The key order lists every key of the map exactly once. */
  ghost predicate Valid(d: Dict) {
    && NoDuplicates(d.order)
    && (forall k :: k in d.order <==> k in d.entries)
  }

  /** `{}` */
  function Empty(): (r: Dict)
    ensures Valid(r) && r.entries == map[]
  {
    Dict([], map[])
  }

  /** `Object.assign(target, src)`: every key of `src` is written into `target`
      in `src`'s order. A key already present keeps its place and takes the new
      value; a key not yet present is appended. */
  function Assign(target: Dict, src: Dict): (r: Dict)
    requires Valid(target) && Valid(src)
    ensures Valid(r)
    ensures forall k :: k in r.entries <==> k in target.entries || k in src.entries
    ensures forall k :: k in src.entries ==> r.entries[k] == src.entries[k]
    ensures forall k :: k in target.entries && k !in src.entries ==> r.entries[k] == target.entries[k]
    ensures |target.order| <= |r.order| && r.order[..|target.order|] == target.order
    ensures SubsequenceOf(r.order[|target.order|..], src.order)
  {
    var added := Filter(src.order, k => k !in target.entries);
    var r := Dict(target.order + added, target.entries + src.entries);
    assert r.order[|target.order|..] == added;
    assert NoDuplicates(r.order) by {
      forall i, j | 0 <= i < j < |r.order| ensures r.order[i] != r.order[j] {
        if i < |target.order| <= j {
          assert r.order[j] in added;
          assert r.order[i] in target.entries;
        }
      }
    }
    r
  }

  /** Merging maps one after the other is the same as merging the later ones first. */
  lemma UnionAssociative<K, V>(a: map<K, V>, b: map<K, V>, c: map<K, V>)
    ensures (a + b) + c == a + (b + c)
  {
  }

  /** Merging into an empty map gives the merged map back. */
  lemma UnionEmptyLeft<K, V>(m: map<K, V>)
    ensures map[] + m == m
  {
  }

  /** Deletes every key that `source` does not have, as the loop of `delete`s does. */
  function Prune(d: Dict, source: Dict): (r: Dict)
    requires Valid(d)
    ensures Valid(r)
    ensures forall k :: k in r.entries <==> k in d.entries && k in source.entries
    ensures forall k :: k in r.entries ==> r.entries[k] == d.entries[k]
    ensures SubsequenceOf(r.order, d.order)
  {
    Dict(Filter(d.order, k => k in source.entries),
         map k | k in d.entries && k in source.entries :: d.entries[k])
  }
}

=== FILE: chat_interface.dfy ===
/** Telegram channels as the dashboard receives them from the server. */
module Telegram {
  import opened Wrappers
  import opened Text

  /** A channel: its id, optional title and username, and the content and
      parsed date (milliseconds since the epoch) of its last message when it
      has them. */
  datatype Channel = Channel(id: string, title: Option<string>, username: Option<string>,
                             lastContent: Option<string>, lastDate: Option<int>)

  /** `title || username || 'Unknown'`. */
  function ChannelName(title: Option<string>, username: Option<string>): (r: string)
    ensures r != []
    ensures title.Some? && title.value != [] ==> r == title.value
    ensures (title.None? || title.value == []) && username.Some? && username.value != [] ==> r == username.value
    ensures (title.None? || title.value == []) && (username.None? || username.value == []) ==> r == "Unknown"
  {
    OrElse(title, OrElse(username, "Unknown"))
  }
}

/** The chat panel: relative times, the channel list with its ordering and
    default selection, and the message list. */
module ChatInterface {
  import opened Wrappers
  import opened Seqs
  import opened Text
  import opened Sorting
  import opened Telegram

  // ---------------------------------------------------------------------
  // Relative time (`formatTime`)
  // ---------------------------------------------------------------------

  /** A parsed date: a millisecond timestamp, or the invalid date. */
  datatype Instant = Valid(ms: int) | Invalid

  /** What `formatTime` shows: "Just now", "<n> min ago", "<n> h ago",
      "<n> d ago", or the date itself. */
  datatype RelTime = JustNow | MinutesAgo(n: int) | HoursAgo(n: int) | DaysAgo(n: int) | Absolute(at: Instant)

  const MinuteMs: int := 60000
  const HourMs: int := 3600000
  const DayMs: int := 86400000

  /** `formatTime(date)` at the moment `now`. `Math.floor(diff / unit)` is
      Dafny's `diff / unit`, which rounds toward negative infinity for a
      positive divisor. An invalid date makes every comparison false, so the
      date itself is shown. Each bucket holds exactly one range of elapsed
      time, the number shown is the count of whole units elapsed, and a date
      in the future is "Just now". */
  function FormatTime(at: Instant, now: int): (r: RelTime)
    ensures at.Invalid? ==> r == Absolute(at)
    ensures at.Valid? ==>
              var diff := now - at.ms;
              && (r == JustNow <==> diff < MinuteMs)
              && (r.MinutesAgo? <==> MinuteMs <= diff < HourMs)
              && (r.HoursAgo? <==> HourMs <= diff < DayMs)
              && (r.DaysAgo? <==> DayMs <= diff < 7 * DayMs)
              && (r.Absolute? <==> 7 * DayMs <= diff)
              && (r.MinutesAgo? ==> 1 <= r.n < 60 && r.n * MinuteMs <= diff < (r.n + 1) * MinuteMs)
              && (r.HoursAgo? ==> 1 <= r.n < 24 && r.n * HourMs <= diff < (r.n + 1) * HourMs)
              && (r.DaysAgo? ==> 1 <= r.n < 7 && r.n * DayMs <= diff < (r.n + 1) * DayMs)
  {
    match at
    case Invalid => Absolute(at)
    case Valid(ms) =>
      var diff := now - ms;
      var minutes := diff / MinuteMs;
      var hours := diff / HourMs;
      var days := diff / DayMs;
      if minutes < 1 then JustNow
      else if minutes < 60 then MinutesAgo(minutes)
      else if hours < 24 then HoursAgo(hours)
      else if days < 7 then DaysAgo(days)
      else Absolute(at)
  }

  // ---------------------------------------------------------------------
  // Channel list
  // ---------------------------------------------------------------------

  /** A row of the channel list, keeping the channel it was made from. */
  datatype ChatItem = ChatItem(id: string, name: string, avatar: string, lastMessage: string,
                               time: Option<RelTime>, channel: Channel)

  /** `title?.charAt(0).toUpperCase() || '?'`. */
  function ChannelAvatar(title: Option<string>): (r: string)
    ensures |r| == 1
    ensures title.Some? && title.value != [] ==> r == [UpperChar(title.value[0])]
    ensures (title.None? || title.value == []) ==> r == "?"
  {
    if title.Some? && title.value != [] then [UpperChar(title.value[0])] else "?"
  }

  /** The row shown for one channel: the preview is the last message's
      content or "", and the time is shown only when the last message has a
      date, as that date's relative time. */
  function ToChatItem(c: Channel, now: int): (r: ChatItem)
    ensures r.id == c.id && r.channel == c
    ensures r.name == ChannelName(c.title, c.username) && r.avatar == ChannelAvatar(c.title)
    ensures r.lastMessage == OrElse(c.lastContent, "")
    ensures r.time.Some? <==> c.lastDate.Some?
    ensures c.lastDate.Some? ==> r.time == Some(FormatTime(Valid(c.lastDate.value), now))
  {
    ChatItem(c.id, ChannelName(c.title, c.username), ChannelAvatar(c.title), OrElse(c.lastContent, ""),
             if c.lastDate.Some? then Some(FormatTime(Valid(c.lastDate.value), now)) else None,
             c)
  }

  /** `channelsData.find(c => c.id === id)?.channelData?.lastMessage?.date`:
      the last-message date of the first row with that id. */
  function FirstDate(items: seq<ChatItem>, id: string): Option<int> {
    if items == [] then None
    else if items[0].id == id then items[0].channel.lastDate
    else FirstDate(items[1..], id)
  }

  /** The comparator's answer for two dates: undated after dated, otherwise newest first. */
  function DateOrder(a: Option<int>, b: Option<int>): (r: int)
    ensures r < 0 <==> a.Some? && (b.None? || b.value < a.value)
    ensures r == 0 <==> a == b
  {
    if a.None? && b.None? then 0
    else if a.None? then 1
    else if b.None? then -1
    else b.value - a.value
  }

  /** The comparator handed to `sort`, which looks both dates up in the unsorted list. */
  function ChannelOrder(items: seq<ChatItem>): Comparator<ChatItem> {
    (a: ChatItem, b: ChatItem) => DateOrder(FirstDate(items, a.id), FirstDate(items, b.id))
  }

  /** One row per channel, in the server's order. */
  function ChatItems(channels: seq<Channel>, now: int): (r: seq<ChatItem>)
    ensures |r| == |channels|
    ensures forall i :: 0 <= i < |channels| ==> r[i] == ToChatItem(channels[i], now)
  {
    seq(|channels|, i requires 0 <= i < |channels| => ToChatItem(channels[i], now))
  }

  /** The channel list: each channel turned into a row, then sorted by date. */
  function ChannelList(channels: seq<Channel>, now: int): (r: seq<ChatItem>)
    ensures |r| == |channels|
    ensures multiset(r) == multiset(ChatItems(channels, now))
  {
    var items := ChatItems(channels, now);
    Sort(items, ChannelOrder(items))
  }

  /** Comparing by date is a consistent order, whatever the list. */
  lemma ChannelOrderConsistent(items: seq<ChatItem>)
    ensures Consistent(ChannelOrder(items))
  {
    var cmp := ChannelOrder(items);
    forall a, b, c | cmp(a, b) <= 0 && cmp(b, c) <= 0 ensures cmp(a, c) <= 0 {
      var da, db, dc := FirstDate(items, a.id), FirstDate(items, b.id), FirstDate(items, c.id);
      assert DateOrder(da, db) <= 0 && DateOrder(db, dc) <= 0;
    }
  }

  /** When ids are distinct, the date looked up for a row is its own. */
  lemma {:induction false} FirstDateOwn(items: seq<ChatItem>, x: ChatItem)
    requires x in items
    requires forall i, j :: 0 <= i < j < |items| ==> items[i].id != items[j].id
    ensures FirstDate(items, x.id) == x.channel.lastDate
  {
    if items[0] != x {
      assert x in items[1..];
      FirstDateOwn(items[1..], x);
    }
  }

  /** Rows with a dated last message come before undated ones, newest first. */
  ghost predicate NewestFirst(r: seq<ChatItem>) {
    forall i, j :: 0 <= i < j < |r| && r[j].channel.lastDate.Some? ==>
      r[i].channel.lastDate.Some? && r[j].channel.lastDate.value <= r[i].channel.lastDate.value
  }

  /** Sorting rows with distinct ids puts dated rows before undated ones and
      dated rows newest first. */
  lemma SortedByDate(items: seq<ChatItem>)
    requires forall i, j :: 0 <= i < j < |items| ==> items[i].id != items[j].id
    ensures NewestFirst(Sort(items, ChannelOrder(items)))
  {
    var cmp := ChannelOrder(items);
    var r := Sort(items, cmp);
    ChannelOrderConsistent(items);
    SortIsSorted(items, cmp);
    forall i, j | 0 <= i < j < |r| && r[j].channel.lastDate.Some?
      ensures r[i].channel.lastDate.Some? && r[j].channel.lastDate.value <= r[i].channel.lastDate.value
    {
      assert r[i] in multiset(items) && r[j] in multiset(items);
      FirstDateOwn(items, r[i]);
      FirstDateOwn(items, r[j]);
      assert cmp(r[i], r[j]) <= 0;
    }
  }

  /** The sorted list holds the same rows, dated channels come before
      undated ones, and dated channels are newest first. */
  lemma ChannelListOrdered(channels: seq<Channel>, now: int)
    requires forall i, j :: 0 <= i < j < |channels| ==> channels[i].id != channels[j].id
    ensures var items := ChatItems(channels, now);
            var r := ChannelList(channels, now);
            && multiset(r) == multiset(items)
            && NewestFirst(r)
  {
    var items := ChatItems(channels, now);
    assert ChannelList(channels, now) == Sort(items, ChannelOrder(items));
    SortedByDate(items);
  }

  /** With nothing selected yet, the first row of a non-empty list becomes selected. */
  function DefaultSelection(selected: Option<string>, sorted: seq<ChatItem>): (r: Option<string>)
    ensures sorted != [] && (selected.None? || selected.value == []) ==> r == Some(sorted[0].id)
    ensures sorted == [] || (selected.Some? && selected.value != []) ==> r == selected
  {
    if |sorted| > 0 && (selected.None? || selected.value == []) then Some(sorted[0].id) else selected
  }

  /** The channel selected by default is the one with the newest message. */
  lemma DefaultIsNewest(channels: seq<Channel>, now: int, k: nat)
    requires forall i, j :: 0 <= i < j < |channels| ==> channels[i].id != channels[j].id
    requires k < |channels| && channels[k].lastDate.Some?
    ensures var r := ChannelList(channels, now);
            && r != []
            && DefaultSelection(None, r) == Some(r[0].id)
            && r[0].channel.lastDate.Some?
            && channels[k].lastDate.value <= r[0].channel.lastDate.value
  {
    var items := ChatItems(channels, now);
    var r := ChannelList(channels, now);
    ChannelListOrdered(channels, now);
    assert items[k] in multiset(r);
    var j :| 0 <= j < |r| && r[j] == items[k];
    if j > 0 {
      assert r[j].channel.lastDate.Some?;
    }
  }

  // ---------------------------------------------------------------------
  // Message list
  // ---------------------------------------------------------------------

  /** A message as the server returns it, with its channel's title and username. */
  datatype Message = Message(id: Option<string>, text: Option<string>, date: Option<int>,
                             channelTitle: Option<string>, channelUsername: Option<string>)

  datatype MessageItem = MessageItem(id: string, sender: string, avatar: string, text: string, time: Option<RelTime>)

  /** The row for the message at position `index` of the server's answer. */
  function ToMessageItem(m: Message, index: nat, now: int): (r: MessageItem)
    ensures r.id == OrElse(m.id, NatToString(index))
    ensures r.sender == ChannelName(m.channelTitle, m.channelUsername)
    ensures r.text == OrElse(m.text, "")
    ensures |r.avatar| == 1
    ensures m.channelTitle.Some? && m.channelTitle.value != [] ==> r.avatar == [UpperChar(m.channelTitle.value[0])]
    ensures ((m.channelTitle.None? || m.channelTitle.value == []) && m.channelUsername.Some? && m.channelUsername.value != [])
              ==> r.avatar == [UpperChar(m.channelUsername.value[0])]
    ensures ((m.channelTitle.None? || m.channelTitle.value == []) && (m.channelUsername.None? || m.channelUsername.value == []))
              ==> r.avatar == "?"
    ensures r.time.Some? <==> m.date.Some?
    ensures m.date.Some? ==> r.time == Some(FormatTime(Valid(m.date.value), now))
  {
    var initials := OrElse(m.channelTitle, OrElse(m.channelUsername, "?"));
    MessageItem(OrElse(m.id, NatToString(index)), ChannelName(m.channelTitle, m.channelUsername),
                [UpperChar(initials[0])], OrElse(m.text, ""),
                if m.date.Some? then Some(FormatTime(Valid(m.date.value), now)) else None)
  }

  /** The comparator used on messages: every pair is a tie. */
  function NoOrder(a: MessageItem, b: MessageItem): int {
    0
  }

  /** One row per message, numbered by position. */
  function MessageItems(msgs: seq<Message>, now: int): (r: seq<MessageItem>)
    ensures |r| == |msgs|
    ensures forall i :: 0 <= i < |msgs| ==> r[i] == ToMessageItem(msgs[i], i, now)
  {
    seq(|msgs|, i requires 0 <= i < |msgs| => ToMessageItem(msgs[i], i, now))
  }

  /** The message list: each message turned into a row, then "sorted" with
      the always-tied comparator, which leaves the rows in the server's order;
      a message without an id is known by its position. */
  function MessageList(msgs: seq<Message>, now: int): (r: seq<MessageItem>)
    ensures |r| == |msgs|
    ensures forall i :: 0 <= i < |msgs| ==> r[i] == ToMessageItem(msgs[i], i, now)
  {
    SortWithTiesOnlyIsIdentity(MessageItems(msgs, now), NoOrder);
    Sort(MessageItems(msgs, now), NoOrder)
  }
}

=== FILE: dwm_data.dfy ===
/** The data behind the dark-web monitoring dashboard: the per-domain leak
    count and the two top-five lists, the monitored-source breakdown, the
    period-over-period change shown on each statistic card, and the trend
    series. Every server answer is an input. */
module DwmData {
  import opened Wrappers
  import opened Seqs
  import opened Text
  import opened Sorting
  import opened Telegram

  // ---------------------------------------------------------------------
  // Domains of leaked items
  // ---------------------------------------------------------------------

  /** `s` with `prefix` removed when it starts with it. */
  function StripPrefix(s: string, prefix: string): (r: string)
    ensures StartsWith(s, prefix) ==> prefix + r == s
    ensures !StartsWith(s, prefix) ==> r == s
  {
    if StartsWith(s, prefix) then s[|prefix|..] else s
  }

  /** `s.split('/')[0]`: the text before the first slash. */
  function BeforeSlash(s: string): (r: string)
    ensures '/' !in r
    ensures StartsWith(s, r) && (|r| == |s| || s[|r|] == '/')
  {
    s[..IndexOf(s, '/')]
  }

  /** The base domain of a leak's `domain` field: one leading `http://` or
      `https://` removed (only one, even if another follows), then one leading `www.` (both case-sensitive), then
      everything from the first slash on, and finally lower-cased. */
  function NormaliseDomain(raw: string): (r: string)
    ensures '/' !in r
    ensures forall i :: 0 <= i < |r| ==> !IsUpper(r[i])
  {
    var noScheme := if StartsWith(raw, "https://") then raw[8..] else StripPrefix(raw, "http://");
    var host := BeforeSlash(StripPrefix(noScheme, "www."));
    var r := Lower(host);
    assert forall i :: 0 <= i < |r| ==> r[i] != '/' by {
      forall i | 0 <= i < |r| ensures r[i] != '/' {
        assert host[i] in host;
      }
    }
    r
  }

  /** `t` and `p` differ at position `i`, so `t` does not start with `p`. */
  lemma DiffersAt(t: string, p: string, i: nat)
    requires i < |p| && (i >= |t| || t[i] != p[i])
    ensures !StartsWith(t, p)
  {
    if |p| <= |t| {
      assert t[..|p|][i] == t[i];
    }
  }

  /** A host followed by a path starts with a scheme `p` only when the host is
      `p` without its two slashes and a path follows. */
  lemma NoSchemeOnHost(host: string, path: string, p: string)
    requires p == "http://" || p == "https://"
    requires '/' !in host && (path == [] || path[0] == '/')
    requires path != [] ==> host != p[..|p| - 2]
    ensures !StartsWith(host + path, p)
  {
    var t := host + path;
    var n := |p| - 2;
    assert p[n] == '/' && '/' !in p[..n];
    if |t| < |p| {
    } else if |host| > n {
      assert t[n] == host[n] && host[n] in host;
      DiffersAt(t, p, n);
    } else if |host| < n {
      assert t[|host|] == path[0] && p[|host|] in p[..n];
      DiffersAt(t, p, |host|);
    } else {
      assert host != p[..n];
      var k :| 0 <= k < n && host[k] != p[k];
      assert t[k] == host[k];
      DiffersAt(t, p, k);
    }
  }

  /** Text after the scheme does not start with another scheme, unless the
      host is literally `http:` or `https:` and a path follows. */
  lemma SchemeFree(www: bool, host: string, path: string)
    requires '/' !in host
    requires !www && path != [] ==> host != "http:" && host != "https:"
    requires path == [] || path[0] == '/'
    ensures var t := (if www then "www." else "") + host + path;
            !StartsWith(t, "https://") && !StartsWith(t, "http://")
  {
    var t := (if www then "www." else "") + host + path;
    if www {
      assert t[0] == 'w';
      DiffersAt(t, "https://", 0);
      DiffersAt(t, "http://", 0);
    } else {
      assert t == host + path;
      assert "https://"[..6] == "https:" && "http://"[..5] == "http:";
      NoSchemeOnHost(host, path, "https://");
      NoSchemeOnHost(host, path, "http://");
    }
  }

  /** The scheme step of the normalisation removes exactly the given scheme. */
  lemma SchemeStripped(scheme: string, www: bool, host: string, path: string)
    requires scheme == "" || scheme == "http://" || scheme == "https://"
    requires '/' !in host
    requires scheme == "" && !www && path != [] ==> host != "http:" && host != "https:"
    requires path == [] || path[0] == '/'
    ensures var raw := scheme + (if www then "www." else "") + host + path;
            (if StartsWith(raw, "https://") then raw[8..] else StripPrefix(raw, "http://"))
            == (if www then "www." else "") + host + path
  {
    var w := if www then "www." else "";
    var raw := scheme + w + host + path;
    var afterScheme := w + host + path;
    assert raw == scheme + afterScheme;
    if scheme == "https://" {
      assert raw[..8] == "https://" && raw[8..] == afterScheme;
    } else if scheme == "http://" {
      assert raw[4] == ':';
      DiffersAt(raw, "https://", 4);
      assert raw[..7] == "http://" && raw[7..] == afterScheme;
    } else {
      assert raw == afterScheme;
      SchemeFree(www, host, path);
    }
  }

  /** The `www.` step removes exactly the given `www.`. */
  lemma WwwStripped(www: bool, host: string, path: string)
    requires '/' !in host
    requires !www ==> !StartsWith(host, "www.")
    requires path == [] || path[0] == '/'
    ensures StripPrefix((if www then "www." else "") + host + path, "www.") == host + path
  {
    var afterScheme := (if www then "www." else "") + host + path;
    if www {
      assert afterScheme[..4] == "www." && afterScheme[4..] == host + path;
    } else {
      assert afterScheme == host + path;
      if |host| >= 4 {
        assert (host + path)[..4] == host[..4];
      } else if path != [] {
        assert (host + path)[|host|] == '/';
        DiffersAt(host + path, "www.", |host|);
      }
    }
  }

  /** Cutting at the first slash leaves the host. */
  lemma HostBeforeSlash(host: string, path: string)
    requires '/' !in host
    requires path == [] || path[0] == '/'
    ensures BeforeSlash(host + path) == host
  {
    if |host| < |host + path| {
      assert (host + path)[|host|] == '/';
    }
  }

  /** Whatever scheme and `www.` a URL carries and whatever path follows, the
      normalised domain is the host. */
  lemma NormaliseUrl(scheme: string, www: bool, host: string, path: string)
    requires scheme == "" || scheme == "http://" || scheme == "https://"
    requires '/' !in host && forall i :: 0 <= i < |host| ==> !IsUpper(host[i])
    requires !www ==> !StartsWith(host, "www.")
    requires scheme == "" && !www && path != [] ==> host != "http:" && host != "https:"
    requires path == [] || path[0] == '/'
    ensures NormaliseDomain(scheme + (if www then "www." else "") + host + path) == host
  {
    SchemeStripped(scheme, www, host, path);
    WwwStripped(www, host, path);
    HostBeforeSlash(host, path);
    LowerOfLower(host);
  }

  /** An upper-case `WWW.` is not stripped, since the prefix test comes
      before lower-casing: the domain keeps a `www.` prefix. */
  lemma UpperCaseWwwKept(host: string)
    requires '/' !in host
    ensures NormaliseDomain("WWW." + host) == "www." + Lower(host)
  {
    var raw := "WWW." + host;
    assert raw[0] == 'W';
    assert '/' !in raw by {
      forall i | 0 <= i < |raw| ensures raw[i] != '/' {
        if i >= 4 {
          assert raw[i] == host[i - 4];
        }
      }
    }
    assert !StartsWith(raw, "https://") by {
      if |"https://"| <= |raw| { assert raw[..|"https://"|][0] == 'W'; }
    }
    assert !StartsWith(raw, "http://") by {
      if |"http://"| <= |raw| { assert raw[..|"http://"|][0] == 'W'; }
    }
    assert !StartsWith(raw, "www.") by {
      assert raw[..|"www."|][0] == 'W';
    }
    assert BeforeSlash(raw) == raw;
    var lowered := Lower(raw);
    assert lowered == "www." + Lower(host) by {
      forall i | 0 <= i < |raw| ensures lowered[i] == ("www." + Lower(host))[i] {
        if i >= 4 {
          assert raw[i] == host[i - 4];
        }
      }
    }
  }

  /** The domain a leak is counted under: none when its `domain` field is
      missing or empty, or when it normalises to the empty string. */
  function DomainOf(leak: Option<string>): (r: Option<string>)
    ensures r.Some? <==> leak.Some? && leak.value != [] && NormaliseDomain(leak.value) != []
    ensures r.Some? ==> r.value == NormaliseDomain(leak.value)
  {
    if leak.Some? && leak.value != [] then
      var d := NormaliseDomain(leak.value);
      if d != [] then Some(d) else None
    else None
  }

  /** The domain each leak is counted under, in order. */
  function Domains(leaks: seq<Option<string>>): (r: seq<Option<string>>)
    ensures |r| == |leaks|
    ensures forall i :: 0 <= i < |leaks| ==> r[i] == DomainOf(leaks[i])
  {
    seq(|leaks|, i requires 0 <= i < |leaks| => DomainOf(leaks[i]))
  }

  /** `domainCounts`: the domains in the order they were first met, and a count for each. */
  datatype Tally = Tally(order: seq<string>, counts: map<string, nat>)

  ghost predicate TallyValid(t: Tally) {
    NoDuplicates(t.order) && forall d :: d in t.order <==> d in t.counts
  }

  /** How often `d` has been counted so far (`domainCounts[domain] || 0`). */
  function CountOf(t: Tally, d: string): nat {
    if d in t.counts then t.counts[d] else 0
  }

  /** One step of the `forEach`: `domainCounts[domain] = (domainCounts[domain] || 0) + 1`
      when the leak has a domain, nothing otherwise. */
  function AddDomain(t: Tally, domain: Option<string>): (r: Tally)
    requires TallyValid(t)
    ensures TallyValid(r)
    ensures forall d :: d in r.counts <==> d in t.counts || domain == Some(d)
    ensures forall d :: CountOf(r, d) == CountOf(t, d) + (if domain == Some(d) then 1 else 0)
  {
    match domain
    case None => t
    case Some(d) =>
      if d in t.counts then Tally(t.order, t.counts[d := t.counts[d] + 1])
      else Tally(t.order + [d], t.counts[d := 1])
  }

  /** The `forEach` over the leaks, counting each domain. */
  function CountDomains(leaks: seq<Option<string>>): (t: Tally)
    ensures TallyValid(t)
    ensures forall d :: d in t.counts ==> d != [] && t.counts[d] > 0
  {
    if leaks == [] then Tally([], map[])
    else AddDomain(CountDomains(leaks[..|leaks| - 1]), DomainOf(leaks[|leaks| - 1]))
  }

  /** Each domain is counted exactly as often as it occurs among the leaks'
      domains, and the tally holds exactly the domains that occur. */
  lemma {:induction false} CountDomainsCounts(leaks: seq<Option<string>>)
    ensures forall d :: CountOf(CountDomains(leaks), d) == multiset(Domains(leaks))[Some(d)]
    ensures forall d :: d in CountDomains(leaks).counts <==> Some(d) in multiset(Domains(leaks))
  {
    if leaks != [] {
      var init := leaks[..|leaks| - 1];
      var last := DomainOf(leaks[|leaks| - 1]);
      var before := CountDomains(init);
      var t := CountDomains(leaks);
      var m := multiset(Domains(init));
      CountDomainsCounts(init);
      assert t == AddDomain(before, last);
      assert multiset(Domains(leaks)) == m + multiset{last} by {
        assert Domains(leaks) == Domains(init) + [last];
      }
      forall d ensures CountOf(t, d) == (m + multiset{last})[Some(d)] {
        assert CountOf(t, d) == CountOf(before, d) + (if last == Some(d) then 1 else 0);
      }
      forall d ensures d in t.counts <==> Some(d) in m + multiset{last} {
        assert d in t.counts <==> d in before.counts || last == Some(d);
      }
    }
  }

  /** A normalised domain normalises to itself: it has no slash, no upper
      case, and (once lower-cased) no scheme, though it may still begin with `www.`. */
  lemma NormaliseIdempotentOnDomains(raw: string)
    ensures var d := NormaliseDomain(raw); !StartsWith(d, "www.") ==> NormaliseDomain(d) == d
  {
    var d := NormaliseDomain(raw);
    if !StartsWith(d, "www.") {
      NormaliseUrl("", false, d, "");
      assert "" + "" + d + "" == d;
    }
  }

  // ---------------------------------------------------------------------
  // Top-five rankings
  // ---------------------------------------------------------------------

  /** A `{ name, value }` row of a top list. */
  datatype Entry = Entry(name: string, value: int)

  /** The tally as `Object.entries(domainCounts).map(([name, value]) => ({ name, value }))`. */
  function TallyEntries(t: Tally): (r: seq<Entry>)
    requires TallyValid(t)
    ensures |r| == |t.order|
    ensures forall i :: 0 <= i < |r| ==> r[i] == Entry(t.order[i], t.counts[t.order[i]])
  {
    seq(|t.order|, i requires 0 <= i < |t.order| => Entry(t.order[i], t.counts[t.order[i]]))
  }

  /** `(a, b) => b.value - a.value`: larger values first. */
  function ByValueDesc(a: Entry, b: Entry): int {
    b.value - a.value
  }

  /** `.sort(ByValueDesc).slice(0, 5)`. */
  function TopFive(entries: seq<Entry>): (r: seq<Entry>)
    ensures |r| == if |entries| < 5 then |entries| else 5
  {
    var s := Sort(entries, ByValueDesc);
    s[..if |s| < 5 then |s| else 5]
  }

  /** Rows in non-increasing order of value. */
  ghost predicate LargestFirst(r: seq<Entry>) {
    forall i, j :: 0 <= i < j < |r| ==> r[j].value <= r[i].value
  }

  /** `r` is a selection of the rows of `entries`, and no row left out is
      larger than a row kept. */
  ghost predicate KeepsLargest(entries: seq<Entry>, r: seq<Entry>) {
    && multiset(r) <= multiset(entries)
    && forall e, i :: e in multiset(entries) - multiset(r) && 0 <= i < |r| ==> e.value <= r[i].value
  }

  /** A list sorted by `ByValueDesc` is largest first. */
  lemma SortedIsLargestFirst(s: seq<Entry>)
    requires SortedBy(s, ByValueDesc)
    ensures LargestFirst(s)
  {
    forall i, j | 0 <= i < j < |s| ensures s[j].value <= s[i].value {
      assert ByValueDesc(s[i], s[j]) <= 0;
    }
  }

  /** A prefix of a largest-first list is largest first. */
  lemma PrefixLargestFirst(s: seq<Entry>, k: nat)
    requires k <= |s| && LargestFirst(s)
    ensures LargestFirst(s[..k])
  {
    forall i, j | 0 <= i < j < k ensures s[..k][j].value <= s[..k][i].value {
      assert s[..k][i] == s[i] && s[..k][j] == s[j];
    }
  }

  /** A prefix of a largest-first arrangement of `entries` keeps the largest rows. */
  lemma PrefixKeepsLargest(entries: seq<Entry>, s: seq<Entry>, k: nat)
    requires k <= |s| && LargestFirst(s) && multiset(s) == multiset(entries)
    ensures KeepsLargest(entries, s[..k])
  {
    var p, rest := s[..k], s[k..];
    assert multiset(entries) == multiset(p) + multiset(rest) by {
      assert s == p + rest;
    }
    assert multiset(entries) - multiset(p) == multiset(rest);
    LaterRowsNoLarger(s, k);
  }

  /** In a largest-first list, no row after position `k` is larger than a row before it. */
  lemma LaterRowsNoLarger(s: seq<Entry>, k: nat)
    requires k <= |s| && LargestFirst(s)
    ensures forall e, i :: e in multiset(s[k..]) && 0 <= i < k ==> e.value <= s[..k][i].value
  {
    forall e, i | e in multiset(s[k..]) && 0 <= i < k ensures e.value <= s[..k][i].value {
      var j :| 0 <= j < |s[k..]| && s[k..][j] == e;
      assert s[k + j] == e;
    }
  }

  /** Keeping the five largest: the rows kept are rows of the input in
      non-increasing order, and no row left out is larger than a row kept. */
  lemma TopFiveRanked(entries: seq<Entry>)
    ensures LargestFirst(TopFive(entries)) && KeepsLargest(entries, TopFive(entries))
  {
    var s := Sort(entries, ByValueDesc);
    assert Consistent(ByValueDesc);
    SortIsSorted(entries, ByValueDesc);
    SortedIsLargestFirst(s);
    PrefixLargestFirst(s, if |s| < 5 then |s| else 5);
    PrefixKeepsLargest(entries, s, if |s| < 5 then |s| else 5);
  }

  /** Shown when no channel could be counted. */
  const FallbackTopLeaks: seq<Entry> := [
    Entry("IRLeaks", 150), Entry("bakhtak", 120), Entry("We Red Evils Original", 100),
    Entry("OnHex", 60), Entry("CVE Notify", 35)]

  /** Shown when no leaked domain could be counted. */
  const FallbackTopDamageable: seq<Entry> := [
    Entry("Tapsi.ir", 109), Entry("Snapp.ir", 85), Entry("Varzesh3.com", 78),
    Entry("Irancell.com", 66), Entry("mci.ir", 47)]

  /** The answer to a channel's message-count request: a failure (a non-OK
      response or an exception), or the reported `total`, which may be missing. */
  datatype CountReply = Failed | Counted(total: Option<int>)

  /** The row for one channel: `null` when the request failed. */
  function ChannelCount(c: Channel, reply: CountReply): (r: Option<Entry>)
    ensures r.Some? <==> reply.Counted?
    ensures r.Some? ==> r.value.name == ChannelName(c.title, c.username) && r.value.value == reply.total.GetOr(0)
  {
    match reply
    case Failed => None
    case Counted(total) => Some(Entry(ChannelName(c.title, c.username), total.GetOr(0)))
  }

  /** The row of each channel, as a function over channels. */
  function RowOf(countOf: Channel -> CountReply): Channel -> Option<Entry> {
    c => ChannelCount(c, countOf(c))
  }

  /** The channels' rows with the `null`s filtered out, in channel order. */
  function ChannelCounts(cs: seq<Channel>, countOf: Channel -> CountReply): (r: seq<Entry>)
    ensures |r| <= |cs|
    ensures forall e :: e in r <==> exists c :: c in cs && ChannelCount(c, countOf(c)) == Some(e)
  {
    FilterMapMembers(cs, RowOf(countOf));
    FilterMap(cs, RowOf(countOf))
  }

  /** One channel gives its row, or nothing when its request failed. */
  lemma ChannelCountsOne(c: Channel, countOf: Channel -> CountReply)
    ensures ChannelCounts([c], countOf)
            == if countOf(c).Counted? then [Entry(ChannelName(c.title, c.username), countOf(c).total.GetOr(0))] else []
  {
    assert [c][1..] == [];
  }

  /** The rows of two lists of channels are the rows of the first followed by
      those of the second: rows keep the channel order, one per counted channel. */
  lemma ChannelCountsAppend(a: seq<Channel>, b: seq<Channel>, countOf: Channel -> CountReply)
    ensures ChannelCounts(a + b, countOf) == ChannelCounts(a, countOf) + ChannelCounts(b, countOf)
  {
    FilterMapAppend(a, b, RowOf(countOf));
  }

  /** The first ten channels (`channels.slice(0, 10)`). */
  function FirstTen(cs: seq<Channel>): (r: seq<Channel>)
    ensures |r| <= 10 && (|cs| <= 10 ==> r == cs)
    ensures forall i :: 0 <= i < |r| ==> r[i] == cs[i]
  {
    if |cs| <= 10 then cs else cs[..10]
  }

  /** `topLeaks`: the five channels with the most messages among the first
      ten, or the fixed list when the channel list could not be fetched or
      no channel could be counted. The fixed list is shown exactly when no
      channel was counted; otherwise at most five counted channels, largest
      first, and no counted channel left out is larger than one kept. */
  function TopLeaks(channels: Option<seq<Channel>>, countOf: Channel -> CountReply): (r: seq<Entry>)
    ensures var counted := if channels.Some? then ChannelCounts(FirstTen(channels.value), countOf) else [];
            && (counted == [] ==> r == FallbackTopLeaks)
            && (counted != [] ==> |r| == (if |counted| < 5 then |counted| else 5) && LargestFirst(r) && KeepsLargest(counted, r))
  {
    var counted := if channels.Some? then ChannelCounts(FirstTen(channels.value), countOf) else [];
    TopFiveRanked(counted);
    var ranked := TopFive(counted);
    if ranked != [] then ranked else FallbackTopLeaks
  }

  /** The `domain` field of a leak: falsy (missing, `null`, `""`, …), a
      string, or a truthy value that is not a string, whose `.replace` throws. */
  datatype DomainField = Falsy | Text(s: string) | OtherTruthy

  /** An element of the leaks array: `null`, whose `.domain` throws, or an object. */
  datatype LeakItem = NullLeak | Leak(domain: DomainField)

  /** Reading the element's domain throws. */
  predicate Throws(item: LeakItem) {
    item.NullLeak? || item.domain.OtherTruthy?
  }

  /** The domain text the `if (leak.domain)` test sees; `None` when it is falsy. */
  function DomainText(item: LeakItem): (r: Option<string>)
    requires !Throws(item)
    ensures r.Some? <==> item.domain.Text?
    ensures r.Some? ==> r.value == item.domain.s
  {
    if item.domain.Text? then Some(item.domain.s) else None
  }

  /** The `forEach` over the leaks: the domain text of every element, or
      `None` when some element throws, which abandons the whole count. */
  function LeakDomains(items: seq<LeakItem>): (r: Option<seq<Option<string>>>)
    ensures r.None? <==> exists i :: 0 <= i < |items| && Throws(items[i])
    ensures r.Some? ==> |r.value| == |items| && forall i :: 0 <= i < |items| ==> r.value[i] == DomainText(items[i])
  {
    if exists i :: 0 <= i < |items| && Throws(items[i]) then None
    else Some(seq(|items|, i requires 0 <= i < |items| => DomainText(items[i])))
  }

  /** The ranking of a completed count, or the fixed list when it is empty. */
  function RankDomains(leaks: seq<Option<string>>): seq<Entry> {
    var ranked := TopFive(TallyEntries(CountDomains(leaks)));
    if ranked != [] then ranked else FallbackTopDamageable
  }

  /** `topDamageable`: the five domains with the most leaks, or the fixed
      list when the leaks could not be fetched, an element threw (the `catch`
      keeps the list empty), or no leak had a domain. */
  function TopDamageable(leaks: Option<seq<LeakItem>>): (r: seq<Entry>)
    ensures leaks.None? ==> r == FallbackTopDamageable
    ensures leaks.Some? && (exists i :: 0 <= i < |leaks.value| && Throws(leaks.value[i])) ==> r == FallbackTopDamageable
    ensures leaks.Some? && LeakDomains(leaks.value).Some? ==> r == RankDomains(LeakDomains(leaks.value).value)
  {
    var domains := if leaks.Some? then LeakDomains(leaks.value) else None;
    if domains.Some? then RankDomains(domains.value) else FallbackTopDamageable
  }

  /** Row `e` names a domain met among the leaks, with the number of leaks
      counted under it. */
  ghost predicate DomainRow(leaks: seq<Option<string>>, e: Entry) {
    e.name != [] && e.value == multiset(Domains(leaks))[Some(e.name)] && e.value > 0
  }

  /** Every row of the tally is a `DomainRow`. */
  lemma TallyEntriesCount(leaks: seq<Option<string>>)
    ensures forall e :: e in TallyEntries(CountDomains(leaks)) ==> DomainRow(leaks, e)
  {
    var t := CountDomains(leaks);
    var entries := TallyEntries(t);
    CountDomainsCounts(leaks);
    forall e | e in entries ensures DomainRow(leaks, e) {
      var k :| 0 <= k < |entries| && entries[k] == e;
      assert t.order[k] in t.counts;
      assert CountOf(t, e.name) == e.value;
    }
  }

  /** A leak with a domain makes the tally non-empty, so the ranking of the
      tally is shown rather than the fixed list. */
  lemma SomeDomainCounted(leaks: seq<Option<string>>, i: nat)
    requires i < |leaks| && DomainOf(leaks[i]).Some?
    ensures TallyEntries(CountDomains(leaks)) != []
    ensures RankDomains(leaks) == TopFive(TallyEntries(CountDomains(leaks)))
  {
    var t := CountDomains(leaks);
    var d := DomainOf(leaks[i]).value;
    CountDomainsCounts(leaks);
    assert Domains(leaks)[i] == Some(d);
    assert Some(d) in multiset(Domains(leaks));
    assert d in t.counts;
    assert d in t.order;
    assert |TallyEntries(t)| > 0;
    assert TopFive(TallyEntries(t)) != [];
  }

  /** Rows kept by `KeepsLargest` are rows of the input. */
  lemma KeptAreMembers(entries: seq<Entry>, r: seq<Entry>)
    requires KeepsLargest(entries, r)
    ensures forall e :: e in r ==> e in entries
  {
    forall e | e in r ensures e in entries {
      assert e in multiset(r);
    }
  }

  /** With at least one counted domain, the ranking holds the five
      domains with the most leaks, or all of them when there are fewer, largest first, each with the number of leaks counted under it,
      and no domain left out has more leaks than one shown. */
  lemma RankDomainsCounts(leaks: seq<Option<string>>)
    requires exists i :: 0 <= i < |leaks| && DomainOf(leaks[i]).Some?
    ensures var r := RankDomains(leaks);
            var n := |TallyEntries(CountDomains(leaks))|;
            && 1 <= n && |r| == (if n < 5 then n else 5)
            && LargestFirst(r)
            && KeepsLargest(TallyEntries(CountDomains(leaks)), r)
            && (forall e :: e in r ==> DomainRow(leaks, e))
  {
    var entries := TallyEntries(CountDomains(leaks));
    var i :| 0 <= i < |leaks| && DomainOf(leaks[i]).Some?;
    SomeDomainCounted(leaks, i);
    TopFiveRanked(entries);
    TopFiveDomainRows(leaks);
  }

  /** The five rows kept from the tally are rows of the tally. */
  lemma TopFiveDomainRows(leaks: seq<Option<string>>)
    ensures forall e :: e in TopFive(TallyEntries(CountDomains(leaks))) ==> DomainRow(leaks, e)
  {
    var entries := TallyEntries(CountDomains(leaks));
    TopFiveRanked(entries);
    KeptAreMembers(entries, TopFive(entries));
    TallyEntriesCount(leaks);
  }

  /** Without a leak that has a domain, the count is empty and the fixed list is shown. */
  lemma NoDomainShowsFallback(leaks: seq<Option<string>>)
    requires forall i :: 0 <= i < |leaks| ==> DomainOf(leaks[i]).None?
    ensures RankDomains(leaks) == FallbackTopDamageable
  {
    var t := CountDomains(leaks);
    CountDomainsCounts(leaks);
    assert forall x :: x in Domains(leaks) ==> x.None?;
    forall d ensures multiset(t.order)[d] == 0 {
      assert Some(d) !in Domains(leaks);
      assert d !in t.counts;
      assert d !in t.order;
    }
    assert multiset(t.order) == multiset{};
    assert |t.order| == |multiset(t.order)| == 0;
  }

  /** When every leak can be read and one has a domain, the domain list is
      the ranking of the counted domains: five, or all when fewer, largest first, each with
      its number of leaks, and none left out with more. */
  lemma TopDamageableCounts(items: seq<LeakItem>)
    requires forall i :: 0 <= i < |items| ==> !Throws(items[i])
    requires exists i :: 0 <= i < |items| && !Throws(items[i]) && DomainOf(DomainText(items[i])).Some?
    ensures LeakDomains(items).Some?
    ensures var leaks := LeakDomains(items).value;
            var r := TopDamageable(Some(items));
            var n := |TallyEntries(CountDomains(leaks))|;
            && 1 <= n && |r| == (if n < 5 then n else 5)
            && LargestFirst(r)
            && KeepsLargest(TallyEntries(CountDomains(leaks)), r)
            && (forall e :: e in r ==> DomainRow(leaks, e))
  {
    var leaks := LeakDomains(items).value;
    var i :| 0 <= i < |items| && !Throws(items[i]) && DomainOf(DomainText(items[i])).Some?;
    assert DomainOf(leaks[i]).Some?;
    RankDomainsCounts(leaks);
  }

  // ---------------------------------------------------------------------
  // Monitored sources
  // ---------------------------------------------------------------------

  /** A value of the `resourcesUnderControl` object: a number, or anything else. */
  datatype JsonValue = Num(n: int) | NonNumber

  /** A slice of the monitored-sources chart (`label`, `value`, `color`). */
  datatype Source = Source(name: string, value: int, color: string)

  /** `monitoredSourcesMap`: the label and colour of each known source key. */
  function SourceStyle(key: string): (r: Option<(string, string)>)
    ensures r.Some? <==> key in {"website", "forum", "telegram", "dark-web", "social-media", "deep-web",
                                 "chat-apps", "email", "gaming-platforms", "file-sharing"}
    ensures key == "website" ==> r == Some(("Web", "#1565c0"))
    ensures key == "dark-web" ==> r == Some(("Dark Web", "#0d47a1"))
    ensures key == "telegram" ==> r == Some(("Telegram", "#42a5f5"))
  {
    if key == "website" then Some(("Web", "#1565c0"))
    else if key == "forum" then Some(("Forums", "#64b5f6"))
    else if key == "telegram" then Some(("Telegram", "#42a5f5"))
    else if key == "dark-web" then Some(("Dark Web", "#0d47a1"))
    else if key == "social-media" then Some(("Social Media", "#42a5f5"))
    else if key == "deep-web" then Some(("Deep Web", "#90caf9"))
    else if key == "chat-apps" then Some(("Chat Apps", "#42a5f5"))
    else if key == "email" then Some(("Email", "#0d47a1"))
    else if key == "gaming-platforms" then Some(("Gaming Platforms", "#42a5f5"))
    else if key == "file-sharing" then Some(("File Sharing", "#90caf9"))
    else None
  }

  /** The slice for one entry of `resourcesUnderControl`, if it is kept: the
      key must be known, and a non-number counts as 0, which is dropped. */
  function SourceOf(key: string, v: JsonValue): (r: Option<Source>)
    ensures r.Some? <==> SourceStyle(key).Some? && v.Num? && v.n > 0
    ensures r.Some? ==> r.value == Source(SourceStyle(key).value.0, v.n, SourceStyle(key).value.1)
  {
    var value := if v.Num? then v.n else 0;
    match SourceStyle(key)
    case None => None
    case Some(style) => if value > 0 then Some(Source(style.0, value, style.1)) else None
  }

  /** The slice of one entry, as a function over entries. */
  function SliceOf(f: (string, JsonValue)): Option<Source> {
    SourceOf(f.0, f.1)
  }

  /** The filter, map and filter over `Object.entries(resourcesUnderControl)`. */
  function MonitoredSources(fields: seq<(string, JsonValue)>): (r: seq<Source>)
    ensures |r| <= |fields|
    ensures forall s :: s in r ==> s.value > 0
    ensures forall s :: s in r <==> exists f :: f in fields && SourceOf(f.0, f.1) == Some(s)
  {
    FilterMapMembers(fields, SliceOf);
    FilterMap(fields, SliceOf)
  }

  /** One entry gives its slice, or nothing when it is dropped. */
  lemma MonitoredSourcesOne(key: string, v: JsonValue)
    ensures MonitoredSources([(key, v)]) == if SourceOf(key, v).Some? then [SourceOf(key, v).value] else []
  {
    assert [(key, v)][1..] == [];
  }

  /** The slices of two runs of entries are those of the first followed by
      those of the second: slices keep the entry order, one per kept entry. */
  lemma MonitoredSourcesAppend(a: seq<(string, JsonValue)>, b: seq<(string, JsonValue)>)
    ensures MonitoredSources(a + b) == MonitoredSources(a) + MonitoredSources(b)
  {
    FilterMapAppend(a, b, SliceOf);
  }

  /** The sources chart: the monitored sources, or, when none is left, the
      web, dark-web and Telegram totals (`count || 0`). */
  function SourcesChart(fields: seq<(string, JsonValue)>, web: Option<int>, darkWeb: Option<int>, telegram: Option<int>): (r: seq<Source>)
    ensures MonitoredSources(fields) != [] ==> r == MonitoredSources(fields)
    ensures MonitoredSources(fields) == [] ==>
              r == [Source("Web", web.GetOr(0), "#1565c0"), Source("Dark Web", darkWeb.GetOr(0), "#0d47a1"),
                    Source("Telegram", telegram.GetOr(0), "#42a5f5")]
  {
    var monitored := MonitoredSources(fields);
    if |monitored| > 0 then monitored
    else [Source("Web", web.GetOr(0), "#1565c0"), Source("Dark Web", darkWeb.GetOr(0), "#0d47a1"),
          Source("Telegram", telegram.GetOr(0), "#42a5f5")]
  }

  /** The fallback is used exactly when no known key has a positive number. */
  lemma SourcesFallbackExactly(fields: seq<(string, JsonValue)>)
    ensures MonitoredSources(fields) == [] <==>
              forall f :: f in fields ==> SourceStyle(f.0).None? || !f.1.Num? || f.1.n <= 0
  {
    if MonitoredSources(fields) != [] {
      var s := MonitoredSources(fields)[0];
      assert s in MonitoredSources(fields);
    } else {
      forall f | f in fields ensures SourceStyle(f.0).None? || !f.1.Num? || f.1.n <= 0 {
      }
    }
  }

  // ---------------------------------------------------------------------
  // Period-over-period change (`calculateChange`)
  // ---------------------------------------------------------------------

  /** An element of `allResourcesByDate`: `null`, or an object of numbers. */
  datatype DataPoint = NullPoint | Point(fields: map<string, int>)

  /** A value stored under a source key when `allResourcesByDate` is an object. */
  datatype ColumnValue = Column(values: seq<int>) | Scalar(truthy: bool)

  /** `allResourcesByDate || []`: an array of points, a plain object, or a
      primitive such as a number or a string. */
  datatype ByDate = Series(points: seq<DataPoint>) | Keyed(columns: map<string, ColumnValue>) | Primitive

  /** What `calculateChange` returns: an exact percentage, or
      `Math.round((recent - previous) / previous * 100)`, whose floating-point
      rounding is not modelled. */
  datatype Change = Percent(p: int) | RoundedRatio(recent: int, previous: int)

  /** `p[k] || p[k + 'Count'] || 0`: a missing or zero reading falls through. */
  function Read(fields: map<string, int>, k: string): (r: int)
    ensures k in fields && fields[k] != 0 ==> r == fields[k]
    ensures (k !in fields || fields[k] == 0) && k + "Count" in fields ==> r == fields[k + "Count"]
    ensures (k !in fields || fields[k] == 0) && k + "Count" !in fields ==> r == 0
  {
    if k in fields && fields[k] != 0 then fields[k]
    else if k + "Count" in fields then fields[k + "Count"]
    else 0
  }

  /** The four sources summed for the all-leaks card. */
  const TotalSources: seq<string> := ["dark-web", "telegram", "website", "forum"]

  /** `sources.reduce((sum, key) => sum + read(key), 0)`. */
  function SumReadings(fields: map<string, int>, keys: seq<string>): int {
    if keys == [] then 0 else SumReadings(fields, keys[..|keys| - 1]) + Read(fields, keys[|keys| - 1])
  }

  /** The sum over the four total sources. */
  lemma SumOfTotalSources(fields: map<string, int>)
    ensures SumReadings(fields, TotalSources) ==
              Read(fields, "dark-web") + Read(fields, "telegram") + Read(fields, "website") + Read(fields, "forum")
  {
    var k := TotalSources;
    assert k[..3][..2][..1][..0] == [];
    assert SumReadings(fields, k[..3][..2][..1]) == Read(fields, "dark-web");
    assert SumReadings(fields, k[..3][..2]) == Read(fields, "dark-web") + Read(fields, "telegram");
    assert SumReadings(fields, k[..3]) == Read(fields, "dark-web") + Read(fields, "telegram") + Read(fields, "website");
  }

  /** The reading of one point: for a source key, that source; without one
      (or with the empty key, which is falsy), the sum of the dark-web,
      Telegram, website and forum readings. */
  function Reading(fields: map<string, int>, sourceKey: Option<string>): (r: int)
    ensures sourceKey.Some? && sourceKey.value != [] ==> r == Read(fields, sourceKey.value)
    ensures (sourceKey.None? || sourceKey.value == []) ==>
              r == Read(fields, "dark-web") + Read(fields, "telegram") + Read(fields, "website") + Read(fields, "forum")
  {
    SumOfTotalSources(fields);
    if sourceKey.Some? && sourceKey.value != [] then Read(fields, sourceKey.value)
    else SumReadings(fields, TotalSources)
  }

  /** The change between two readings: any rise from 0 is 100%, no rise from 0 is 0%. */
  function ChangeBetween(recent: int, previous: int): (r: Change)
    ensures previous == 0 && recent > 0 ==> r == Percent(100)
    ensures previous == 0 && recent <= 0 ==> r == Percent(0)
    ensures previous != 0 ==> r == RoundedRatio(recent, previous)
  {
    if previous == 0 then Percent(if recent > 0 then 100 else 0) else RoundedRatio(recent, previous)
  }

  /** `calculateChange(currentValue, sourceKey)`. A `null` point makes the
      property access throw, and the `catch` answers 0. */
  function CalculateChange(byDate: ByDate, currentValue: int, sourceKey: Option<string>): (r: Change)
    ensures !byDate.Series? || |byDate.points| < 2 ==> r == Percent(0)
    ensures byDate.Series? && |byDate.points| >= 2 ==>
              var recent := byDate.points[|byDate.points| - 1];
              var previous := byDate.points[|byDate.points| - 2];
              && (recent.NullPoint? || previous.NullPoint? ==> r == Percent(0))
              && (recent.Point? && previous.Point? ==>
                    r == ChangeBetween(Reading(recent.fields, sourceKey), Reading(previous.fields, sourceKey)))
  {
    if !byDate.Series? || |byDate.points| < 2 then Percent(0)
    else
      var recent := byDate.points[|byDate.points| - 1];
      var previous := byDate.points[|byDate.points| - 2];
      if recent.NullPoint? || previous.NullPoint? then Percent(0)
      else ChangeBetween(Reading(recent.fields, sourceKey), Reading(previous.fields, sourceKey))
  }

  /** Only the last two points matter, and the card's own value never does. */
  lemma ChangeUsesLastTwoPoints(a: seq<DataPoint>, b: seq<DataPoint>, v: int, w: int, sourceKey: Option<string>)
    requires |a| >= 2 && |b| >= 2
    requires a[|a| - 2..] == b[|b| - 2..]
    ensures CalculateChange(Series(a), v, sourceKey) == CalculateChange(Series(b), w, sourceKey)
  {
    assert a[|a| - 1] == a[|a| - 2..][1] && a[|a| - 2] == a[|a| - 2..][0];
    assert b[|b| - 1] == b[|b| - 2..][1] && b[|b| - 2] == b[|b| - 2..][0];
  }

  // ---------------------------------------------------------------------
  // Trend series (`extractTrendData`)
  // ---------------------------------------------------------------------

  /** A line of a trend chart. */
  datatype Trend = Trend(name: string, data: seq<int>, color: string)

  /** The series name: "Dark Web" and "Web" for two keys, otherwise the key capitalised. */
  function TrendName(key: string): (r: string)
    ensures key == "dark-web" ==> r == "Dark Web"
    ensures key == "website" ==> r == "Web"
    ensures key != "dark-web" && key != "website" ==> r == Capitalise(key)
  {
    if key == "dark-web" then "Dark Web" else if key == "website" then "Web" else Capitalise(key)
  }

  /** `x || y` on two column lookups: a stored value that is truthy wins.
      Arrays, even empty ones, are truthy. */
  function ColumnOr(a: Option<ColumnValue>, b: Option<ColumnValue>): Option<ColumnValue> {
    if a.Some? && (a.value.Column? || a.value.truthy) then a else b
  }

  function Lookup(m: map<string, ColumnValue>, k: string): Option<ColumnValue> {
    if k in m then Some(m[k]) else None
  }

  /** `fields[key]` is truthy: present and non-zero. */
  predicate Truthy(fields: map<string, int>, key: string) {
    key in fields && fields[key] != 0
  }

  /** `item[k] || item[k + 'Count'] || item[k.replace('-', '_')] || item[k.replace('-', '')] || 0`:
      the first truthy reading in that order wins. */
  function PointValue(fields: map<string, int>, k: string): (r: int)
    ensures Truthy(fields, k) ==> r == fields[k]
    ensures !Truthy(fields, k) && Truthy(fields, k + "Count") ==> r == fields[k + "Count"]
    ensures (!Truthy(fields, k) && !Truthy(fields, k + "Count") && Truthy(fields, ReplaceFirst(k, '-', "_")))
              ==> r == fields[ReplaceFirst(k, '-', "_")]
    ensures (!Truthy(fields, k) && !Truthy(fields, k + "Count") && !Truthy(fields, ReplaceFirst(k, '-', "_"))
             && Truthy(fields, ReplaceFirst(k, '-', ""))) ==> r == fields[ReplaceFirst(k, '-', "")]
    ensures (!Truthy(fields, k) && !Truthy(fields, k + "Count") && !Truthy(fields, ReplaceFirst(k, '-', "_"))
             && !Truthy(fields, ReplaceFirst(k, '-', ""))) ==> r == 0
  {
    var keys := [k, k + "Count", ReplaceFirst(k, '-', "_"), ReplaceFirst(k, '-', "")];
    FirstTruthyWins(fields, keys, 0);
    FirstTruthyWins(fields, keys, 1);
    FirstTruthyWins(fields, keys, 2);
    FirstTruthyWins(fields, keys, 3);
    FirstNonZero(fields, keys)
  }

  /** Key `i` is the first of `keys` with a truthy reading. */
  predicate FirstTruthy(fields: map<string, int>, keys: seq<string>, i: int) {
    && 0 <= i < |keys| && Truthy(fields, keys[i])
    && forall j :: 0 <= j < i ==> !Truthy(fields, keys[j])
  }

  /** The reading under the first of `keys` that is truthy, or 0. */
  function FirstNonZero(fields: map<string, int>, keys: seq<string>): (r: int)
    ensures r != 0 ==> exists i :: FirstTruthy(fields, keys, i) && r == fields[keys[i]]
    ensures r == 0 ==> forall i :: 0 <= i < |keys| ==> !Truthy(fields, keys[i])
  {
    if keys == [] then 0
    else if Truthy(fields, keys[0]) then
      assert FirstTruthy(fields, keys, 0);
      fields[keys[0]]
    else
      var r := FirstNonZero(fields, keys[1..]);
      assert forall i :: 1 <= i < |keys| ==> keys[i] == keys[1..][i - 1];
      if r != 0 then
        var i :| FirstTruthy(fields, keys[1..], i) && r == fields[keys[1..][i]];
        assert FirstTruthy(fields, keys, i + 1);
        r
      else r
  }

  /** Whichever key is the first truthy one, its reading is the result. */
  lemma FirstTruthyWins(fields: map<string, int>, keys: seq<string>, i: int)
    ensures FirstTruthy(fields, keys, i) ==> FirstNonZero(fields, keys) == fields[keys[i]]
  {
    if FirstTruthy(fields, keys, i) {
      var r := FirstNonZero(fields, keys);
      assert Truthy(fields, keys[i]);
      var i' :| FirstTruthy(fields, keys, i') && r == fields[keys[i']];
      assert Truthy(fields, keys[i']);
      assert i' == i;
    }
  }

  /** `a || b` on numbers: `a` unless it is 0. */
  function NumOr(a: int, b: int): int {
    if a != 0 then a else b
  }

  /** `fields[key]`, with a missing key read as the falsy `undefined`, i.e. 0. */
  function Get(fields: map<string, int>, key: string): int {
    if key in fields then fields[key] else 0
  }

  /** The point value is the literal `||` chain of the four lookups. */
  lemma PointValueIsOrChain(fields: map<string, int>, k: string)
    ensures PointValue(fields, k)
            == NumOr(Get(fields, k), NumOr(Get(fields, k + "Count"),
                 NumOr(Get(fields, ReplaceFirst(k, '-', "_")), NumOr(Get(fields, ReplaceFirst(k, '-', "")), 0))))
  {
  }

  /** `extractTrendData(key, color)`. `None` stands for the exception a
      `null` element of the array throws, which aborts the whole update. */
  function ExtractTrend(byDate: ByDate, key: string, color: string): (r: Option<Trend>)
    ensures r.Some? ==> r.value.name == TrendName(key) && r.value.color == color
    ensures r.None? <==> byDate.Series? && exists i :: 0 <= i < |byDate.points| && byDate.points[i].NullPoint?
    ensures byDate.Series? && r.Some? ==> |r.value.data| == |byDate.points|
    ensures byDate.Series? && r.Some? ==>
              forall i :: 0 <= i < |byDate.points| ==>
                byDate.points[i].Point? && r.value.data[i] == PointValue(byDate.points[i].fields, key)
    ensures byDate.Keyed? && key in byDate.columns && byDate.columns[key].Column? ==>
              r.value.data == byDate.columns[key].values
    ensures byDate.Keyed? && key in byDate.columns && byDate.columns[key].Scalar? && byDate.columns[key].truthy ==>
              r.value.data == []
    ensures (byDate.Keyed? && !(key in byDate.columns && (byDate.columns[key].Column? || byDate.columns[key].truthy))
             && key + "Count" in byDate.columns && byDate.columns[key + "Count"].Column?) ==>
              r.value.data == byDate.columns[key + "Count"].values
    ensures (byDate.Keyed? && !(key in byDate.columns && (byDate.columns[key].Column? || byDate.columns[key].truthy))
             && !(key + "Count" in byDate.columns && byDate.columns[key + "Count"].Column?)) ==>
              r.value.data == []
    ensures byDate.Primitive? ==> r.value.data == []
  {
    match byDate
    case Series(points) =>
      if points == [] then Some(Trend(TrendName(key), [], color))
      else SeriesTrend(points, key, color)
    case Keyed(columns) =>
      var found := ColumnOr(Lookup(columns, key), Lookup(columns, key + "Count"));
      var data := if found.Some? && found.value.Column? then found.value.values else [];
      Some(Trend(TrendName(key), data, color))
    case Primitive => Some(Trend(TrendName(key), [], color))
  }

  /** The array case: one value per point, or the exception if a point is `null`. */
  function SeriesTrend(points: seq<DataPoint>, key: string, color: string): (r: Option<Trend>)
    ensures r.Some? ==> r.value.name == TrendName(key) && r.value.color == color && |r.value.data| == |points|
    ensures r.Some? ==> forall i :: 0 <= i < |points| ==> points[i].Point? && r.value.data[i] == PointValue(points[i].fields, key)
    ensures r.None? <==> exists i :: 0 <= i < |points| && points[i].NullPoint?
  {
    if exists i :: 0 <= i < |points| && points[i].NullPoint? then None
    else Some(Trend(TrendName(key), seq(|points|, i requires 0 <= i < |points| => PointValue(points[i].fields, key)), color))
  }

  /** The three series of a trend chart in the order Dark Web, Telegram, Web,
      with the empty ones removed; `None` when extraction threw. */
  function TrendChart(byDate: ByDate): (r: Option<seq<Trend>>)
    ensures r.None? <==> byDate.Series? && exists i :: 0 <= i < |byDate.points| && byDate.points[i].NullPoint?
    ensures r.Some? ==>
              var all := [ExtractTrend(byDate, "dark-web", "#64b5f6").value, ExtractTrend(byDate, "telegram", "#42a5f5").value,
                          ExtractTrend(byDate, "website", "#1565c0").value];
              && SubsequenceOf(r.value, all)
              && forall x :: x in r.value <==> x in all && x.data != []
  {
    var d := ExtractTrend(byDate, "dark-web", "#64b5f6");
    var t := ExtractTrend(byDate, "telegram", "#42a5f5");
    var w := ExtractTrend(byDate, "website", "#1565c0");
    if d.None? || t.None? || w.None? then None
    else Some(Filter([d.value, t.value, w.value], (x: Trend) => x.data != []))
  }

  /** A series without `null` points gives one value per point for any key. */
  lemma ExtractFromFullSeries(points: seq<DataPoint>, key: string, color: string)
    requires forall i :: 0 <= i < |points| ==> points[i].Point?
    ensures var r := ExtractTrend(Series(points), key, color);
            r.Some? && r.value.name == TrendName(key) && |r.value.data| == |points|
  {
  }

  /** When all three extractions succeed, the chart is the non-empty ones in order. */
  lemma TrendChartOfSeries(byDate: ByDate, d: Trend, t: Trend, w: Trend)
    requires ExtractTrend(byDate, "dark-web", "#64b5f6") == Some(d)
    requires ExtractTrend(byDate, "telegram", "#42a5f5") == Some(t)
    requires ExtractTrend(byDate, "website", "#1565c0") == Some(w)
    ensures TrendChart(byDate) == Some(Filter([d, t, w], (x: Trend) => x.data != []))
  {
  }

  /** The series a full array gives for one key, with its name and one value per point. */
  lemma FullSeriesTrend(points: seq<DataPoint>, key: string, color: string) returns (t: Trend)
    requires points != [] && forall i :: 0 <= i < |points| ==> points[i].Point?
    ensures ExtractTrend(Series(points), key, color) == Some(t)
    ensures t.name == TrendName(key) && |t.data| == |points| && t.data != []
  {
    ExtractFromFullSeries(points, key, color);
    t := ExtractTrend(Series(points), key, color).value;
  }

  /** With a non-empty array of points none of which is `null`, all three
      series are shown, named "Dark Web", "Telegram" and "Web", each with one
      value per point. */
  lemma FullSeriesShowsAllTrends(points: seq<DataPoint>)
    requires points != [] && forall i :: 0 <= i < |points| ==> points[i].Point?
    ensures var r := TrendChart(Series(points));
            && r.Some? && |r.value| == 3
            && r.value[0].name == "Dark Web" && r.value[1].name == "Telegram" && r.value[2].name == "Web"
            && forall t :: t in r.value ==> |t.data| == |points|
  {
    var d := FullSeriesTrend(points, "dark-web", "#64b5f6");
    var t := FullSeriesTrend(points, "telegram", "#42a5f5");
    var w := FullSeriesTrend(points, "website", "#1565c0");
    TrendNames();
    TrendChartOfSeries(Series(points), d, t, w);
    KeepNonEmptyTrends(d, t, w);
  }

  /** Filtering three series that all have data keeps them all. */
  lemma KeepNonEmptyTrends(d: Trend, t: Trend, w: Trend)
    requires d.data != [] && t.data != [] && w.data != []
    ensures Filter([d, t, w], (x: Trend) => x.data != []) == [d, t, w]
  {
    var s := [d, t, w];
    assert forall i :: 0 <= i < |s| ==> s[i].data != [];
    FilterKeepsAll(s, (x: Trend) => x.data != []);
  }

  /** The names of the three trend series. */
  lemma TrendNames()
    ensures TrendName("dark-web") == "Dark Web" && TrendName("telegram") == "Telegram" && TrendName("website") == "Web"
  {
    assert "telegram" != "dark-web" && "telegram" != "website" by {
      assert "telegram"[0] != "dark-web"[0] && "telegram"[0] != "website"[0];
    }
  }
}

=== FILE: fence_strip.dfy ===
/** The clean-up applied to the translation backend's reply before it is
    parsed as JSON: every "```json" marker is removed, then every "```"
    marker, each together with one newline directly after it, and finally
    the surrounding whitespace is trimmed. */
module FenceStrip {

  /** The characters `String.prototype.trim` removes: ECMAScript's WhiteSpace
      and LineTerminator code points. */
  predicate IsJsSpace(c: char) {
    || c == '\t' || c == '\n' || c == '\U{B}' || c == '\U{C}' || c == '\r' || c == ' '
    || c == '\U{A0}' || c == '\U{1680}' || ('\U{2000}' <= c <= '\U{200A}')
    || c == '\U{2028}' || c == '\U{2029}' || c == '\U{202F}' || c == '\U{205F}'
    || c == '\U{3000}' || c == '\U{FEFF}'
  }

  /** Number of whitespace characters at the start of `s`. */
  function LeadingSpace(s: string): (n: nat)
    ensures n <= |s|
    ensures forall i :: 0 <= i < n ==> IsJsSpace(s[i])
    ensures n < |s| ==> !IsJsSpace(s[n])
  {
    if s == [] || !IsJsSpace(s[0]) then 0 else 1 + LeadingSpace(s[1..])
  }

  /** Number of whitespace characters at the end of `s`. */
  function TrailingSpace(s: string): (n: nat)
    ensures n <= |s|
    ensures forall i :: |s| - n <= i < |s| ==> IsJsSpace(s[i])
    ensures n < |s| ==> !IsJsSpace(s[|s| - n - 1])
  {
    if s == [] || !IsJsSpace(s[|s| - 1]) then 0 else 1 + TrailingSpace(s[..|s| - 1])
  }

  /** `r` sits at position `a` of `s` with only whitespace around it. */
  predicate SpaceAround(s: string, r: string, a: nat) {
    && a + |r| <= |s| && s[a..a + |r|] == r
    && (forall i :: 0 <= i < a ==> IsJsSpace(s[i]))
    && (forall i :: a + |r| <= i < |s| ==> IsJsSpace(s[i]))
  }

  /** `s.trim()`. */
  function Trim(s: string): (r: string)
    ensures r == [] || (!IsJsSpace(r[0]) && !IsJsSpace(r[|r| - 1]))
    ensures exists a :: SpaceAround(s, r, a)
  {
    var a := LeadingSpace(s);
    var rest := s[a..];
    var r := rest[..|rest| - TrailingSpace(rest)];
    assert SpaceAround(s, r, a);
    r
  }

  /** Trimming a trimmed string changes nothing. */
  lemma TrimIdempotent(s: string)
    ensures Trim(Trim(s)) == Trim(s)
  {
    var r := Trim(s);
    assert LeadingSpace(r) == 0;
    assert TrailingSpace(r) == 0;
  }

  /** `s.replace(/pat\n?/g, '')`: scanning left to right, each occurrence of
      `pat` is deleted together with a newline right after it, and the scan
      resumes after the deleted text. */
  function RemoveMarkers(s: string, pat: string): (r: string)
    requires pat != []
    ensures |r| <= |s|
    ensures pat[0] !in s ==> r == s
    decreases |s|
  {
    if s == [] then []
    else if |pat| <= |s| && s[..|pat|] == pat then
      var rest := s[|pat|..];
      if rest != [] && rest[0] == '\n' then RemoveMarkers(rest[1..], pat) else RemoveMarkers(rest, pat)
    else
      assert pat[0] !in s ==> pat[0] !in s[1..];
      assert s == [s[0]] + s[1..];
      [s[0]] + RemoveMarkers(s[1..], pat)
  }

  const Fence: string := "```"
  const JsonFence: string := "```json"

  /** The reply text made ready for `JSON.parse`: no "```" survives, and a
      reply without a backtick is only trimmed. */
  function CleanReply(text: string): (r: string)
    ensures NoFence(r)
    ensures '`' !in text ==> r == Trim(text)
  {
    var s := RemoveMarkers(RemoveMarkers(text, JsonFence), Fence);
    FenceFree(RemoveMarkers(text, JsonFence));
    var r := Trim(s);
    var a: nat :| SpaceAround(s, r, a);
    SliceNoFence(s, a, a + |r|);
    r
  }

  /** Three backticks start at position `i` of `s`. */
  predicate FenceAt(s: string, i: int) {
    0 <= i && i + 3 <= |s| && s[i] == '`' && s[i + 1] == '`' && s[i + 2] == '`'
  }

  /** No three backticks in a row anywhere in `s`. */
  predicate NoFence(s: string) {
    forall i :: 0 <= i < |s| ==> !FenceAt(s, i)
  }

  /** Text not starting with a backtick yields a result not starting with one. */
  lemma NoLeadingTick(t: string)
    requires t == [] || t[0] != '`'
    ensures var r := RemoveMarkers(t, Fence); r == [] || r[0] != '`'
  {
  }

  /** Text not starting with two backticks yields a result not starting with two. */
  lemma NoLeadingTicks(t: string)
    requires !(|t| >= 2 && t[0] == '`' && t[1] == '`')
    ensures var r := RemoveMarkers(t, Fence); !(|r| >= 2 && r[0] == '`' && r[1] == '`')
  {
    if t != [] && t[0] == '`' {
      NoLeadingTick(t[1..]);
    }
  }

  /** After the "```" pass no three backticks remain: a kept backtick is never
      directly followed by a removed marker, or it would have started one. */
  lemma {:induction false} FenceFree(t: string)
    ensures NoFence(RemoveMarkers(t, Fence))
    decreases |t|
  {
    var r := RemoveMarkers(t, Fence);
    if t == [] {
    } else if |Fence| <= |t| && t[..|Fence|] == Fence {
      var rest := t[|Fence|..];
      if rest != [] && rest[0] == '\n' {
        FenceFree(rest[1..]);
      } else {
        FenceFree(rest);
      }
    } else {
      var tail := RemoveMarkers(t[1..], Fence);
      FenceFree(t[1..]);
      if t[0] == '`' {
        assert !(|t[1..]| >= 2 && t[1..][0] == '`' && t[1..][1] == '`');
        NoLeadingTicks(t[1..]);
      }
      forall i | 0 <= i < |r| ensures !FenceAt(r, i) {
        if 1 <= i {
          assert !FenceAt(tail, i - 1);
        }
      }
    }
  }

  /** A slice of fence-free text is fence-free. */
  lemma SliceNoFence(s: string, a: nat, b: nat)
    requires a <= b <= |s| && NoFence(s)
    ensures NoFence(s[a..b])
  {
    forall i | 0 <= i < b - a ensures !FenceAt(s[a..b], i) {
      assert !FenceAt(s, a + i);
    }
  }

  /** Fence-free text passes through a pass whose marker starts with "```". */
  lemma {:induction false} RemoveMarkersFenceFree(s: string, pat: string)
    requires |pat| >= 3 && pat[..3] == Fence && NoFence(s)
    ensures RemoveMarkers(s, pat) == s
    decreases |s|
  {
    if s != [] {
      if |pat| <= |s| && s[..|pat|] == pat {
        assert FenceAt(s, 0);
      }
      SliceNoFence(s, 1, |s|);
      assert s[1..] == s[1..|s|];
      RemoveMarkersFenceFree(s[1..], pat);
      assert s == [s[0]] + s[1..];
    }
  }

  /** Cleaning a cleaned reply changes nothing. */
  lemma CleanReplyIdempotent(text: string)
    ensures CleanReply(CleanReply(text)) == CleanReply(text)
  {
    var c := CleanReply(text);
    RemoveMarkersFenceFree(c, JsonFence);
    RemoveMarkersFenceFree(c, Fence);
    TrimIdempotent(RemoveMarkers(RemoveMarkers(text, JsonFence), Fence));
  }

  /** A character that cannot start the marker is kept. */
  lemma KeptCharacter(s: string, pat: string)
    requires pat != [] && s != [] && s[0] != pat[0]
    ensures RemoveMarkers(s, pat) == [s[0]] + RemoveMarkers(s[1..], pat)
  {
    if |pat| <= |s| {
      assert s[..|pat|][0] == s[0];
    }
  }

  /** Text before the first marker character is kept as it is. */
  lemma {:induction false} RemoveMarkersKeepsPrefix(a: string, b: string, pat: string)
    requires pat != [] && pat[0] !in a
    ensures RemoveMarkers(a + b, pat) == a + RemoveMarkers(b, pat)
    decreases |a|
  {
    if a != [] {
      var ab := a + b;
      assert a[0] in a;
      assert ab[0] == a[0] && ab[1..] == a[1..] + b;
      KeptCharacter(ab, pat);
      assert RemoveMarkers(ab, pat) == [a[0]] + RemoveMarkers(a[1..] + b, pat);
      RemoveMarkersKeepsPrefix(a[1..], b, pat);
      var tail := RemoveMarkers(b, pat);
      assert [a[0]] + (a[1..] + tail) == a + tail by {
        assert a == [a[0]] + a[1..];
      }
    } else {
      assert a + b == b;
    }
  }

  /** The "```json" pass removes the opening marker and its newline. */
  lemma JsonPassOnBlock(body: string)
    requires '`' !in body
    ensures RemoveMarkers(JsonFence + "\n" + body + "\n" + Fence, JsonFence) == body + "\n" + Fence
  {
    var s := body + "\n";
    var text := JsonFence + "\n" + body + "\n" + Fence;
    assert text[..|JsonFence|] == JsonFence;
    assert text[|JsonFence|..][0] == '\n' && text[|JsonFence|..][1..] == s + Fence;
    assert '`' !in s;
    RemoveMarkersKeepsPrefix(s, Fence, JsonFence);
    assert RemoveMarkers(Fence, JsonFence) == Fence;
  }

  /** The "```" pass removes the closing marker. */
  lemma FencePassOnBlock(body: string)
    requires '`' !in body
    ensures RemoveMarkers(body + "\n" + Fence, Fence) == body + "\n"
  {
    var s := body + "\n";
    assert '`' !in s;
    RemoveMarkersKeepsPrefix(s, Fence, Fence);
    assert Fence[..|Fence|] == Fence && Fence[|Fence|..] == [];
  }

  /** Trimming a trimmed body followed by a newline gives the body. */
  lemma TrimBodyNewline(body: string)
    requires body == [] || (!IsJsSpace(body[0]) && !IsJsSpace(body[|body| - 1]))
    ensures Trim(body + "\n") == body
  {
    var s := body + "\n";
    assert LeadingSpace(s) == 0 || body == [];
    assert TrailingSpace(s[LeadingSpace(s)..]) == 1 || body == [];
  }

  /** A reply wrapped in a JSON code block comes out as the block's content. */
  lemma FencedReplyUnwrapped(body: string)
    requires '`' !in body
    requires body == [] || (!IsJsSpace(body[0]) && !IsJsSpace(body[|body| - 1]))
    ensures CleanReply(JsonFence + "\n" + body + "\n" + Fence) == body
  {
    JsonPassOnBlock(body);
    FencePassOnBlock(body);
    TrimBodyNewline(body);
  }
}

=== FILE: filter_sidebar.dfy ===
/** The search-result filter sidebar: filter groups shown under a derived
    label, narrowed by a case-insensitive search box, each with a tri-state
    "Select All" box and an expanded/collapsed flag per group. */
module FilterSidebar {
  import opened Wrappers
  import opened Seqs
  import opened Text

  /** One checkbox of a group. */
  datatype FilterValue = FilterValue(key: string, value: string, checked: bool)

  /** A filter group. The group's own `label` field (here `name`) is never
      shown: the sidebar derives the label from `key`. */
  datatype FilterGroup = FilterGroup(key: string, name: string, values: seq<FilterValue>, expanded: bool)

  // ---------------------------------------------------------------------
  // Labels
  // ---------------------------------------------------------------------

  /** `labelMap`: the seven keys with a fixed label. */
  function FixedLabel(key: string): Option<string> {
    if key == "actor" then Some("Attacker")
    else if key == "cve" then Some("Vulnerability")
    else if key == "country" then Some("Country")
    else if key == "entity_type" then Some("Entity Type")
    else if key == "last_seen" then Some("Last Seen")
    else if key == "exploit_available" then Some("Exploit Available")
    else if key == "exploit_in_the_wild" then Some("Exploit In The Wild")
    else None
  }

  /** `getFilterLabel`: the fixed label, or else the key with its first
      character upper-cased and every later underscore turned into a space. */
  function GetFilterLabel(key: string): (r: string)
    ensures key == "actor" ==> r == "Attacker"
    ensures key == "cve" ==> r == "Vulnerability"
    ensures key == "country" ==> r == "Country"
    ensures key == "entity_type" ==> r == "Entity Type"
    ensures key == "last_seen" ==> r == "Last Seen"
    ensures key == "exploit_available" ==> r == "Exploit Available"
    ensures key == "exploit_in_the_wild" ==> r == "Exploit In The Wild"
    ensures FixedLabel(key).None? ==>
              && |r| == |key|
              && (key != [] ==> r[0] == UpperChar(key[0]))
              && (forall i :: 1 <= i < |key| ==> r[i] == (if key[i] == '_' then ' ' else key[i]))
  {
    match FixedLabel(key)
    case Some(fixed) => fixed
    case None => if key == [] then [] else [UpperChar(key[0])] + ReplaceChar(key[1..], '_', ' ')
  }

  /** Upper-casing loses nothing on characters that are not already upper case. */
  lemma UpperCharInjective(a: char, b: char)
    requires !IsUpper(a) && !IsUpper(b) && UpperChar(a) == UpperChar(b)
    ensures a == b
  {
  }

  /** For keys without a fixed label, the derived label gives the key back:
      two lower-case-initial keys without spaces that share a label are the
      same key. */
  lemma DerivedLabelDeterminesKey(k1: string, k2: string)
    requires FixedLabel(k1).None? && FixedLabel(k2).None?
    requires ' ' !in k1 && ' ' !in k2
    requires k1 != [] ==> !IsUpper(k1[0])
    requires k2 != [] ==> !IsUpper(k2[0])
    requires GetFilterLabel(k1) == GetFilterLabel(k2)
    ensures k1 == k2
  {
    var r := GetFilterLabel(k1);
    if k1 != [] {
      UpperCharInjective(k1[0], k2[0]);
    }
    forall i | 1 <= i < |k1| ensures k1[i] == k2[i] {
      assert k1[i] in k1 && k2[i] in k2;
      assert r[i] == (if k1[i] == '_' then ' ' else k1[i]);
      assert r[i] == (if k2[i] == '_' then ' ' else k2[i]);
    }
  }

  // ---------------------------------------------------------------------
  // Search
  // ---------------------------------------------------------------------

  /** `s` contains `sub` once both are lower-cased. */
  predicate ContainsIgnoringCase(s: string, sub: string) {
    Contains(Lower(s), Lower(sub))
  }

  /** The test of `filteredFilters`: an empty search keeps the group;
      otherwise its label or one of its values must contain the search. */
  predicate Matches(g: FilterGroup, search: string) {
    || search == []
    || ContainsIgnoringCase(GetFilterLabel(g.key), search)
    || exists i :: 0 <= i < |g.values| && ContainsIgnoringCase(g.values[i].value, search)
  }

  /** `filteredFilters`: the groups that match the search, in their order. */
  function FilteredFilters(filters: seq<FilterGroup>, search: string): (r: seq<FilterGroup>)
    ensures SubsequenceOf(r, filters)
    ensures forall g :: g in r <==> g in filters && Matches(g, search)
  {
    Filter(filters, (g: FilterGroup) => Matches(g, search))
  }

  /** An empty search box shows every group. */
  lemma EmptySearchKeepsAll(filters: seq<FilterGroup>)
    ensures FilteredFilters(filters, "") == filters
  {
    FilterKeepsAll(filters, (g: FilterGroup) => Matches(g, ""));
  }

  /** The search is case-insensitive: searching for the lower-cased text
      selects the same groups. */
  lemma SearchIgnoresCase(filters: seq<FilterGroup>, search: string)
    ensures FilteredFilters(filters, search) == FilteredFilters(filters, Lower(search))
  {
    LowerOfLower(Lower(search));
    FilterSameTest(filters, (g: FilterGroup) => Matches(g, search), (g: FilterGroup) => Matches(g, Lower(search)));
  }

  /** Typing more narrows the list: the groups kept for `s + t` are a
      subsequence of those kept for `s`. */
  lemma LongerSearchNarrows(filters: seq<FilterGroup>, s: string, t: string)
    ensures SubsequenceOf(FilteredFilters(filters, s + t), FilteredFilters(filters, s))
  {
    LowerAppend(s, t);
    forall g: FilterGroup | Matches(g, s + t) ensures Matches(g, s) {
      if s != [] {
        if ContainsIgnoringCase(GetFilterLabel(g.key), s + t) {
          ContainsPrefixOf(Lower(GetFilterLabel(g.key)), Lower(s), Lower(t));
        } else {
          var i :| 0 <= i < |g.values| && ContainsIgnoringCase(g.values[i].value, s + t);
          ContainsPrefixOf(Lower(g.values[i].value), Lower(s), Lower(t));
        }
      }
    }
    FilterStricter(filters, (g: FilterGroup) => Matches(g, s + t), (g: FilterGroup) => Matches(g, s));
  }

  // ---------------------------------------------------------------------
  // Select all
  // ---------------------------------------------------------------------

  /** `values.every((v) => v.checked)`. */
  function AllChecked(values: seq<FilterValue>): (r: bool)
    ensures r <==> forall i :: 0 <= i < |values| ==> values[i].checked
  {
    values == [] || (values[0].checked && AllChecked(values[1..]))
  }

  /** `values.some((v) => v.checked)`. */
  function AnyChecked(values: seq<FilterValue>): (r: bool)
    ensures r <==> exists i :: 0 <= i < |values| && values[i].checked
  {
    values != [] && (values[0].checked || (assert forall i :: 1 <= i < |values| ==> values[i] == values[1..][i - 1]; AnyChecked(values[1..])))
  }

  /** The two flags of the "Select All" checkbox. */
  datatype Tristate = Tristate(checked: bool, indeterminate: bool)

  /** The "Select All" box of a group: not shown for a group without values;
      otherwise checked when every value is, indeterminate when some but not
      all are, and never both. */
  function SelectAllBox(values: seq<FilterValue>): (r: Option<Tristate>)
    ensures r.None? <==> values == []
    ensures r.Some? ==> (r.value.checked <==> forall i :: 0 <= i < |values| ==> values[i].checked)
    ensures r.Some? ==> (r.value.indeterminate <==>
              (exists i :: 0 <= i < |values| && values[i].checked) &&
              (exists i :: 0 <= i < |values| && !values[i].checked))
    ensures r.Some? ==> !(r.value.checked && r.value.indeterminate)
  {
    if values == [] then None
    else Some(Tristate(AllChecked(values), AnyChecked(values) && !AllChecked(values)))
  }

  /** A change forwarded to the parent: `onFilterChange(filterKey, value, checked)`. */
  datatype Change = Change(filterKey: string, value: string, checked: bool)

  /** `handleFilterToggle`: forwards the change when a callback was given. */
  function FilterToggle(hasCallback: bool, filterKey: string, value: string, checked: bool): (r: seq<Change>)
    ensures |r| <= 1
    ensures hasCallback <==> r == [Change(filterKey, value, checked)]
  {
    if hasCallback then [Change(filterKey, value, checked)] else []
  }

  /** The "Select All" `onChange`: one `handleFilterToggle` per value of the
      group, in order, all with the box's new state. */
  method SelectAllChanges(g: FilterGroup, checked: bool, hasCallback: bool) returns (calls: seq<Change>)
    ensures !hasCallback ==> calls == []
    ensures hasCallback ==> |calls| == |g.values|
    ensures hasCallback ==> forall i :: 0 <= i < |g.values| ==>
              calls[i].filterKey == g.key && calls[i].value == g.values[i].value && calls[i].checked == checked
  {
    calls := [];
    var n := 0;
    while n < |g.values|
      invariant 0 <= n <= |g.values|
      invariant !hasCallback ==> calls == []
      invariant hasCallback ==> |calls| == n
      invariant hasCallback ==> forall i :: 0 <= i < n ==> calls[i] == Change(g.key, g.values[i].value, checked)
    {
      calls := calls + FilterToggle(hasCallback, g.key, g.values[n].value, checked);
      n := n + 1;
    }
  }

  // ---------------------------------------------------------------------
  // Expanded groups
  // ---------------------------------------------------------------------

  /** `expandedGroups[k]` used as a flag: a key never set reads as collapsed. */
  function IsExpanded(m: map<string, bool>, k: string): bool {
    k in m && m[k]
  }

  /** Group `i` is the last group with its key. */
  predicate LastOfKey(filters: seq<FilterGroup>, i: int) {
    0 <= i < |filters| && forall j :: i < j < |filters| ==> filters[j].key != filters[i].key
  }

  /** The initial `expandedGroups`: each group's `expanded` under its key,
      a later group with the same key overwriting an earlier one. */
  function InitialExpanded(filters: seq<FilterGroup>): (r: map<string, bool>)
    ensures forall k :: k in r <==> exists i :: 0 <= i < |filters| && filters[i].key == k
  {
    if filters == [] then map[]
    else
      var init := filters[..|filters| - 1];
      var last := filters[|filters| - 1];
      assert forall i :: 0 <= i < |init| ==> init[i] == filters[i];
      InitialExpanded(init)[last.key := last.expanded]
  }

  /** The key of group `i` holds its `expanded` when no later group has that key. */
  lemma {:induction false} InitialExpandedLastWins(filters: seq<FilterGroup>, i: int)
    requires LastOfKey(filters, i)
    ensures filters[i].key in InitialExpanded(filters)
    ensures InitialExpanded(filters)[filters[i].key] == filters[i].expanded
    decreases |filters|
  {
    var init := filters[..|filters| - 1];
    if i < |init| {
      assert filters[|filters| - 1].key != filters[i].key;
      assert LastOfKey(init, i) by {
        assert forall j :: i <= j < |init| ==> init[j] == filters[j];
      }
      InitialExpandedLastWins(init, i);
    }
  }

  /** `handleToggleGroup(filterKey)`: the group's flag is negated (a key
      never set becomes expanded) and every other entry stays as it was. */
  function ToggleGroup(prev: map<string, bool>, filterKey: string): (r: map<string, bool>)
    ensures filterKey in r && r[filterKey] == !IsExpanded(prev, filterKey)
    ensures forall k :: k != filterKey ==> (k in r <==> k in prev)
    ensures forall k :: k != filterKey && k in prev ==> r[k] == prev[k]
  {
    prev[filterKey := !IsExpanded(prev, filterKey)]
  }

  /** Toggling a group twice shows every group as before, and gives back
      the same map when the group already had an entry. */
  lemma ToggleTwice(m: map<string, bool>, filterKey: string)
    ensures forall k :: IsExpanded(ToggleGroup(ToggleGroup(m, filterKey), filterKey), k) == IsExpanded(m, k)
    ensures filterKey in m ==> ToggleGroup(ToggleGroup(m, filterKey), filterKey) == m
  {
    var r := ToggleGroup(ToggleGroup(m, filterKey), filterKey);
    if filterKey in m {
      assert r.Keys == m.Keys;
    }
  }
}

=== FILE: sorting.dfy ===
/** `Array.prototype.sort` with a comparator. Since ES2019 the sort is stable,
    so it is modelled by a stable insertion sort: each element is inserted
    after every element already placed that it does not precede. */
module Sorting {

  /** A comparator as handed to `sort`: negative puts `a` first, positive puts `b` first. */
  type Comparator<!T> = (T, T) -> int

  /** Swapping the arguments negates the answer. */
  ghost predicate Antisymmetric<T(!new)>(cmp: Comparator<T>) {
    forall a, b :: cmp(a, b) == -cmp(b, a)
  }

  /** "May come before" is transitive. */
  ghost predicate Transitive<T(!new)>(cmp: Comparator<T>) {
    forall a, b, c :: cmp(a, b) <= 0 && cmp(b, c) <= 0 ==> cmp(a, c) <= 0
  }

  /** A comparator that orders consistently. */
  ghost predicate Consistent<T(!new)>(cmp: Comparator<T>) {
    Antisymmetric(cmp) && Transitive(cmp)
  }

  /** No element is placed after one it should precede. */
  ghost predicate SortedBy<T>(s: seq<T>, cmp: Comparator<T>) {
    forall i, j :: 0 <= i < j < |s| ==> cmp(s[i], s[j]) <= 0
  }

  /** Inserts `x` into `s` just before the first element it strictly precedes. */
  function Insert<T>(x: T, s: seq<T>, cmp: Comparator<T>): (r: seq<T>)
    ensures multiset(r) == multiset(s) + multiset{x}
    ensures |r| == |s| + 1
  {
    if s == [] then [x]
    else if cmp(x, s[0]) < 0 then [x] + s
    else
      assert s == [s[0]] + s[1..];
      [s[0]] + Insert(x, s[1..], cmp)
  }

  /** The stable sort: sort all but the last element, then insert the last one. */
  function Sort<T>(s: seq<T>, cmp: Comparator<T>): (r: seq<T>)
    ensures multiset(r) == multiset(s)
    ensures |r| == |s|
  {
    if s == [] then []
    else
      assert s == s[..|s| - 1] + [s[|s| - 1]];
      Insert(s[|s| - 1], Sort(s[..|s| - 1], cmp), cmp)
  }

  /** `a` may come before every element of `s`. */
  ghost predicate PrecedesAll<T>(a: T, s: seq<T>, cmp: Comparator<T>) {
    forall y :: y in s ==> cmp(a, y) <= 0
  }

  /** A sequence is sorted when its head precedes its tail and the tail is sorted. */
  lemma SortedCons<T>(a: T, s: seq<T>, cmp: Comparator<T>)
    requires PrecedesAll(a, s, cmp) && SortedBy(s, cmp)
    ensures SortedBy([a] + s, cmp)
  {
    var r := [a] + s;
    forall i, j | 0 <= i < j < |r| ensures cmp(r[i], r[j]) <= 0 {
      if i == 0 {
        assert r[j] in s;
      } else {
        assert r[i] == s[i - 1] && r[j] == s[j - 1];
      }
    }
  }

  lemma {:induction false} InsertKeepsSorted<T(!new)>(x: T, s: seq<T>, cmp: Comparator<T>)
    requires Consistent(cmp) && SortedBy(s, cmp)
    ensures SortedBy(Insert(x, s, cmp), cmp)
  {
    if s == [] {
    } else if cmp(x, s[0]) < 0 {
      forall y | y in s ensures cmp(x, y) <= 0 {
        var k :| 0 <= k < |s| && s[k] == y;
        if k > 0 {
          assert cmp(s[0], s[k]) <= 0;
        }
      }
      SortedCons(x, s, cmp);
    } else {
      var tail := Insert(x, s[1..], cmp);
      assert SortedBy(s[1..], cmp);
      InsertKeepsSorted(x, s[1..], cmp);
      forall y | y in tail ensures cmp(s[0], y) <= 0 {
        assert y in multiset(tail);
        if y in multiset(s[1..]) {
          var k :| 0 <= k < |s[1..]| && s[1..][k] == y;
          assert s[k + 1] == y;
        } else {
          assert y == x;
          assert cmp(s[0], x) == -cmp(x, s[0]);
        }
      }
      SortedCons(s[0], tail, cmp);
    }
  }

  /** With a consistent comparator the result is in order. */
  lemma {:induction false} SortIsSorted<T(!new)>(s: seq<T>, cmp: Comparator<T>)
    requires Consistent(cmp)
    ensures SortedBy(Sort(s, cmp), cmp)
    ensures multiset(Sort(s, cmp)) == multiset(s)
  {
    if s != [] {
      SortIsSorted(s[..|s| - 1], cmp);
      InsertKeepsSorted(s[|s| - 1], Sort(s[..|s| - 1], cmp), cmp);
    }
  }

  /** A comparator that always answers 0 leaves the sequence as it was. */
  lemma {:induction false} SortWithTiesOnlyIsIdentity<T(!new)>(s: seq<T>, cmp: Comparator<T>)
    requires forall a, b :: cmp(a, b) == 0
    ensures Sort(s, cmp) == s
  {
    if s != [] {
      SortWithTiesOnlyIsIdentity(s[..|s| - 1], cmp);
      InsertWithTiesAppends(s[|s| - 1], s[..|s| - 1], cmp);
      assert s == s[..|s| - 1] + [s[|s| - 1]];
    }
  }

  lemma {:induction false} InsertWithTiesAppends<T(!new)>(x: T, s: seq<T>, cmp: Comparator<T>)
    requires forall a, b :: cmp(a, b) == 0
    ensures Insert(x, s, cmp) == s + [x]
  {
    if s != [] {
      InsertWithTiesAppends(x, s[1..], cmp);
      assert s == [s[0]] + s[1..];
    }
  }
}

=== FILE: translate_sync.dfy ===
/** The incremental English-to-Persian catalogue synchroniser of
    `script/translate-with-zai.js`: it decides which keys need a (new)
    translation, sends them to the translation backend in batches, merges
    the answers into the Persian catalogue, drops keys the English catalogue
    no longer has, and refreshes the English baseline snapshot. */
module TranslateSync {
  import opened Wrappers
  import opened Seqs
  import opened Catalog
  import opened BaselinePath

  /** Keys per backend request (`BATCH_SIZE`). */
  const BatchSize: nat := 100

  // ---------------------------------------------------------------------
  // Classification against the baseline (`findDifferences`)
  // ---------------------------------------------------------------------

  datatype Differences = Differences(newKeys: seq<string>, changedKeys: seq<string>, removedKeys: seq<string>)

  /** Keys of `current` missing from `baseline`, keys in both whose text
      changed, and keys of `baseline` missing from `current`; the first two in
      `current`'s key order, the last in `baseline`'s. */
  function FindDifferences(current: Dict, baseline: Dict): (r: Differences)
    requires Valid(current) && Valid(baseline)
    ensures forall k :: k in r.newKeys <==> k in current.entries && k !in baseline.entries
    ensures forall k :: k in r.changedKeys <==>
              k in current.entries && k in baseline.entries && current.entries[k] != baseline.entries[k]
    ensures forall k :: k in r.removedKeys <==> k in baseline.entries && k !in current.entries
    ensures SubsequenceOf(r.newKeys, current.order) && SubsequenceOf(r.changedKeys, current.order)
    ensures SubsequenceOf(r.removedKeys, baseline.order)
    ensures NoDuplicates(r.newKeys) && NoDuplicates(r.changedKeys) && NoDuplicates(r.removedKeys)
  {
    Differences(
      Filter(current.order, k => k !in baseline.entries),
      Filter(current.order, k => k in baseline.entries && k in current.entries
                                   && current.entries[k] != baseline.entries[k]),
      Filter(baseline.order, k => k !in current.entries))
  }

  /** The three classes never share a key. */
  lemma DifferencesAreDisjoint(current: Dict, baseline: Dict)
    requires Valid(current) && Valid(baseline)
    ensures var d := FindDifferences(current, baseline);
            && (forall k :: k in d.newKeys ==> k !in d.changedKeys && k !in d.removedKeys)
            && (forall k :: k in d.changedKeys ==> k !in d.removedKeys)
  {
  }

  /** Comparing a catalogue with itself finds nothing. */
  lemma {:induction false} FindDifferencesIdempotent(d: Dict)
    requires Valid(d)
    ensures FindDifferences(d, d) == Differences([], [], [])
  {
    var r := FindDifferences(d, d);
    HeadIsMember(r.newKeys);
    HeadIsMember(r.changedKeys);
    HeadIsMember(r.removedKeys);
  }

  // ---------------------------------------------------------------------
  // Key selection (`keysToTranslate` in `translateFile`)
  // ---------------------------------------------------------------------

  /** First-run rule: a key is selected when the Persian catalogue lacks it
      or still holds the English text for it. */
  function SelectWithoutBaseline(en: Dict, fa: Dict): (r: seq<string>)
    requires Valid(en) && Valid(fa)
    ensures forall k :: k in r <==> k in en.entries && (k !in fa.entries || fa.entries[k] == en.entries[k])
    ensures NoDuplicates(r) && SubsequenceOf(r, en.order)
  {
    Filter(en.order, k => k !in fa.entries || (k in en.entries && fa.entries[k] == en.entries[k]))
  }

  /** Baseline rule: a key is selected when it is new or changed with respect
      to the baseline, or when the Persian catalogue holds the English text
      for it. A key the Persian catalogue lacks is not selected when its
      English text is unchanged. */
  function SelectWithBaseline(en: Dict, baseline: Dict, fa: Dict): (r: seq<string>)
    requires Valid(en) && Valid(baseline) && Valid(fa)
    ensures forall k :: k in r <==> (k in en.entries &&
              (|| k !in baseline.entries
               || baseline.entries[k] != en.entries[k]
               || (k in fa.entries && fa.entries[k] == en.entries[k])))
    ensures NoDuplicates(r) && SubsequenceOf(r, en.order)
  {
    var diff := FindDifferences(en, baseline);
    Filter(en.order, k => || k in diff.newKeys
                          || k in diff.changedKeys
                          || (k in fa.entries && k in en.entries && fa.entries[k] == en.entries[k]))
  }

  /** The keys a run translates: the baseline rule when a baseline snapshot
      was read, the first-run rule otherwise. */
  function KeysToTranslate(en: Dict, baseline: Option<Dict>, fa: Dict): (r: seq<string>)
    requires Valid(en) && Valid(fa) && (baseline.Some? ==> Valid(baseline.value))
    ensures NoDuplicates(r) && SubsequenceOf(r, en.order)
    ensures forall k :: k in r ==> k in en.entries
    ensures baseline.Some? ==>
              forall k :: k in r <==> (k in en.entries &&
                (|| k !in baseline.value.entries
                 || baseline.value.entries[k] != en.entries[k]
                 || (k in fa.entries && fa.entries[k] == en.entries[k])))
    ensures baseline.None? ==>
              forall k :: k in r <==> k in en.entries && (k !in fa.entries || fa.entries[k] == en.entries[k])
  {
    var r := if baseline.Some? then SelectWithBaseline(en, baseline.value, fa) else SelectWithoutBaseline(en, fa);
    SubsequenceMembers(r, en.order);
    r
  }

  /** A key the Persian catalogue translates (its text differs from the
      English) is never selected by the first-run rule. */
  lemma TranslatedKeyNotSelectedWithoutBaseline(en: Dict, fa: Dict, k: string)
    requires Valid(en) && Valid(fa)
    requires k in fa.entries && k in en.entries && fa.entries[k] != en.entries[k]
    ensures k !in SelectWithoutBaseline(en, fa)
  {
  }

  /** With the baseline rule, an unchanged key that the Persian catalogue
      lacks is not selected, so it stays missing. */
  lemma UnchangedMissingKeyNotSelectedWithBaseline(en: Dict, baseline: Dict, fa: Dict, k: string)
    requires Valid(en) && Valid(baseline) && Valid(fa)
    requires k in en.entries && k in baseline.entries && baseline.entries[k] == en.entries[k]
    requires k !in fa.entries
    ensures k !in SelectWithBaseline(en, baseline, fa)
  {
  }

  /** A key new to both the baseline and the Persian catalogue is selected
      exactly once. */
  lemma NewKeySelectedOnce(en: Dict, baseline: Option<Dict>, fa: Dict, k: string)
    requires Valid(en) && Valid(fa) && (baseline.Some? ==> Valid(baseline.value))
    requires k in en.entries && k !in fa.entries && (baseline.Some? ==> k !in baseline.value.entries)
    ensures multiset(KeysToTranslate(en, baseline, fa))[k] == 1
  {
    NoDuplicatesOccursOnce(KeysToTranslate(en, baseline, fa), k);
  }

  /** When the baseline equals the English catalogue, only Persian entries
      still holding the English text are selected. */
  lemma {:induction false} UnchangedSourceSelectsOnlyCopies(en: Dict, fa: Dict)
    requires Valid(en) && Valid(fa)
    ensures forall k :: k in SelectWithBaseline(en, en, fa) <==>
              k in en.entries && k in fa.entries && fa.entries[k] == en.entries[k]
  {
  }

  // ---------------------------------------------------------------------
  // Batching (`runBatches`)
  // ---------------------------------------------------------------------

  /** The key list cut into consecutive slices of `size` keys; only the last
      slice may be shorter. */
  function Chunks(keys: seq<string>, size: nat): (r: seq<seq<string>>)
    requires size > 0
    ensures Flatten(r) == keys
    ensures forall i :: 0 <= i < |r| ==> 0 < |r[i]| <= size
    ensures forall i :: 0 <= i < |r| - 1 ==> |r[i]| == size
    decreases |keys|
  {
    if keys == [] then []
    else
      var n := if |keys| < size then |keys| else size;
      var rest := Chunks(keys[n..], size);
      assert ([keys[..n]] + rest)[1..] == rest;
      assert keys == keys[..n] + keys[n..];
      [keys[..n]] + rest
  }

  /** A backend request: the batch in, the parsed answer out, or `None` when
      the request or the parsing of its answer failed. */
  type Backend = Dict -> Option<Dict>

  /** Parsed answers are well-formed objects. */
  ghost predicate WellFormed(backend: Backend) {
    forall b :: Valid(b) && backend(b).Some? ==> Valid(backend(b).value)
  }

  /** Answers mention only keys of their own batch. */
  ghost predicate Confined(backend: Backend) {
    forall b :: Valid(b) && backend(b).Some? ==> backend(b).value.entries.Keys <= b.entries.Keys
  }

  /** Answers mention every key of their batch. */
  ghost predicate Complete(backend: Backend) {
    forall b :: Valid(b) && backend(b).Some? ==> b.entries.Keys <= backend(b).value.entries.Keys
  }

  /** The `{key: englishText}` object sent for one slice of keys. */
  function MakeBatch(chunk: seq<string>, en: Dict): (b: Dict)
    requires NoDuplicates(chunk) && forall k :: k in chunk ==> k in en.entries
    ensures Valid(b) && b.order == chunk
    ensures forall k :: k in b.entries <==> k in chunk
    ensures forall k :: k in b.entries ==> b.entries[k] == en.entries[k]
  {
    Dict(chunk, map k | k in chunk :: en.entries[k])
  }

  /** What one batch writes into the results: the parsed answer, or on
      failure the batch itself, that is each of its keys with its English text. */
  function BatchResult(batch: Dict, backend: Backend): (r: Dict)
    requires Valid(batch) && WellFormed(backend)
    ensures Valid(r)
    ensures backend(batch).None? ==> r == batch
    ensures backend(batch).Some? ==> r == backend(batch).value
  {
    match backend(batch)
    case Some(answer) => answer
    case None => batch
  }

  /** The slices hold distinct English keys. */
  ghost predicate Partitioned(chunks: seq<seq<string>>, en: Dict) {
    NoDuplicates(Flatten(chunks)) && forall k :: k in Flatten(chunks) ==> k in en.entries
  }

  lemma PartitionedSplit(chunks: seq<seq<string>>, en: Dict)
    requires chunks != [] && Partitioned(chunks, en)
    ensures Partitioned(chunks[1..], en)
    ensures NoDuplicates(chunks[0]) && forall k :: k in chunks[0] ==> k in en.entries
    ensures forall k :: k in chunks[0] ==> k !in Flatten(chunks[1..])
  {
    var f := Flatten(chunks);
    var a, b := chunks[0], Flatten(chunks[1..]);
    assert f == a + b;
    forall i, j | 0 <= i < j < |a| ensures a[i] != a[j] {
      assert a[i] == f[i] && a[j] == f[j];
    }
    forall i, j | 0 <= i < j < |b| ensures b[i] != b[j] {
      assert b[i] == f[|a| + i] && b[j] == f[|a| + j];
    }
    forall i, j | 0 <= i < |a| && 0 <= j < |b| ensures a[i] != b[j] {
      assert a[i] == f[i] && b[j] == f[|a| + j];
    }
  }

  /** The workers, run one after the other: every batch's result is
      `Object.assign`ed into the results in batch order. */
  function MergeBatches(acc: Dict, chunks: seq<seq<string>>, en: Dict, backend: Backend): (r: Dict)
    requires Valid(acc) && WellFormed(backend) && Partitioned(chunks, en)
    ensures Valid(r)
    decreases |chunks|
  {
    if chunks == [] then acc
    else
      PartitionedSplit(chunks, en);
      var result := BatchResult(MakeBatch(chunks[0], en), backend);
      MergeBatches(Assign(acc, result), chunks[1..], en, backend)
  }

  /** `runBatches`: no keys give `{}`; otherwise the merged results of all batches. */
  function RunBatches(keys: seq<string>, en: Dict, backend: Backend, size: nat): (r: Dict)
    requires size > 0 && NoDuplicates(keys) && (forall k :: k in keys ==> k in en.entries)
    requires WellFormed(backend)
    ensures Valid(r)
    ensures keys == [] ==> r.entries == map[]
  {
    if keys == [] then Empty()
    else
      var chunks := Chunks(keys, size);
      MergeBatches(Empty(), chunks, en, backend)
  }

  lemma {:induction false} FlattenMember(chunks: seq<seq<string>>, k: string)
    requires k in Flatten(chunks)
    ensures exists i :: 0 <= i < |chunks| && k in chunks[i]
  {
    assert Flatten(chunks) == chunks[0] + Flatten(chunks[1..]);
    if k !in chunks[0] {
      FlattenMember(chunks[1..], k);
      var i :| 0 <= i < |chunks[1..]| && k in chunks[1..][i];
      assert k in chunks[i + 1];
    }
  }

  /** Which keys the merged results hold. */
  lemma {:induction false} MergeBatchesKeys(acc: Dict, chunks: seq<seq<string>>, en: Dict, backend: Backend)
    requires Valid(acc) && WellFormed(backend) && Partitioned(chunks, en)
    ensures Confined(backend) ==>
              forall k :: k in MergeBatches(acc, chunks, en, backend).entries ==> k in acc.entries || k in Flatten(chunks)
    ensures Complete(backend) ==>
              forall k :: k in acc.entries || k in Flatten(chunks) ==> k in MergeBatches(acc, chunks, en, backend).entries
    decreases |chunks|
  {
    if chunks != [] {
      PartitionedSplit(chunks, en);
      var batch := MakeBatch(chunks[0], en);
      var acc' := Assign(acc, BatchResult(batch, backend));
      MergeBatchesKeys(acc', chunks[1..], en, backend);
      assert Flatten(chunks) == chunks[0] + Flatten(chunks[1..]);
    }
  }

  /** A key outside every remaining slice is left as it was. */
  lemma {:induction false} MergeBatchesUntouched(acc: Dict, chunks: seq<seq<string>>, en: Dict, backend: Backend, k: string)
    requires Valid(acc) && WellFormed(backend) && Confined(backend) && Partitioned(chunks, en)
    requires k !in Flatten(chunks)
    ensures var r := MergeBatches(acc, chunks, en, backend);
            (k in r.entries <==> k in acc.entries) && (k in acc.entries ==> r.entries[k] == acc.entries[k])
    decreases |chunks|
  {
    if chunks != [] {
      PartitionedSplit(chunks, en);
      assert Flatten(chunks) == chunks[0] + Flatten(chunks[1..]);
      var batch := MakeBatch(chunks[0], en);
      var acc' := Assign(acc, BatchResult(batch, backend));
      MergeBatchesUntouched(acc', chunks[1..], en, backend, k);
    }
  }

  /** Every slice holds distinct English keys. */
  lemma {:induction false} PartitionedChunk(chunks: seq<seq<string>>, en: Dict, i: nat)
    requires Partitioned(chunks, en) && i < |chunks|
    ensures NoDuplicates(chunks[i]) && forall k :: k in chunks[i] ==> k in en.entries
  {
    PartitionedSplit(chunks, en);
    if i > 0 {
      PartitionedChunk(chunks[1..], en, i - 1);
      assert chunks[1..][i - 1] == chunks[i];
    }
  }

  /** The result of slice `i`. */
  function BatchResultAt(chunks: seq<seq<string>>, i: nat, en: Dict, backend: Backend): (r: Dict)
    requires Partitioned(chunks, en) && i < |chunks| && WellFormed(backend)
    ensures Valid(r)
    ensures (PartitionedChunk(chunks, en, i); backend(MakeBatch(chunks[i], en)).None?) ==>
              forall k :: k in r.entries <==> k in chunks[i]
  {
    PartitionedChunk(chunks, en, i);
    BatchResult(MakeBatch(chunks[i], en), backend)
  }

  /** A key of slice `i` ends with the value that slice's result gave it. */
  lemma {:induction false} MergeBatchesFromChunk(acc: Dict, chunks: seq<seq<string>>, en: Dict, backend: Backend, i: nat, k: string)
    requires Valid(acc) && WellFormed(backend) && Confined(backend) && Partitioned(chunks, en)
    requires i < |chunks| && k in chunks[i] && k in BatchResultAt(chunks, i, en, backend).entries
    ensures k in MergeBatches(acc, chunks, en, backend).entries
    ensures MergeBatches(acc, chunks, en, backend).entries[k] == BatchResultAt(chunks, i, en, backend).entries[k]
    decreases |chunks|
  {
    PartitionedSplit(chunks, en);
    var batch := MakeBatch(chunks[0], en);
    var acc' := Assign(acc, BatchResult(batch, backend));
    if i == 0 {
      MergeBatchesUntouched(acc', chunks[1..], en, backend, k);
    } else {
      assert chunks[1..][i - 1] == chunks[i];
      assert BatchResultAt(chunks[1..], i - 1, en, backend) == BatchResultAt(chunks, i, en, backend);
      MergeBatchesFromChunk(acc', chunks[1..], en, backend, i - 1, k);
    }
  }

  /** When every backend answer keeps to its batch's keys, the results hold
      only selected keys; when every answer covers its batch, they hold all of
      them (a failed batch always covers its own keys). */
  lemma RunBatchesKeys(keys: seq<string>, en: Dict, backend: Backend, size: nat)
    requires size > 0 && NoDuplicates(keys) && (forall k :: k in keys ==> k in en.entries)
    requires WellFormed(backend)
    ensures Confined(backend) ==> forall k :: k in RunBatches(keys, en, backend, size).entries ==> k in keys
    ensures Complete(backend) ==> forall k :: k in keys ==> k in RunBatches(keys, en, backend, size).entries
  {
    if keys != [] {
      MergeBatchesKeys(Empty(), Chunks(keys, size), en, backend);
    }
  }

  /** A batch whose request fails contributes each of its keys with its
      English text, and no later batch overwrites them. */
  lemma RunBatchesFailedBatchKeepsSource(keys: seq<string>, en: Dict, backend: Backend, size: nat, i: nat, k: string)
    requires size > 0 && NoDuplicates(keys) && (forall k :: k in keys ==> k in en.entries)
    requires WellFormed(backend) && Confined(backend)
    requires i < |Chunks(keys, size)| && k in Chunks(keys, size)[i]
    requires (PartitionedChunk(Chunks(keys, size), en, i); backend(MakeBatch(Chunks(keys, size)[i], en)).None?)
    ensures k in RunBatches(keys, en, backend, size).entries
    ensures RunBatches(keys, en, backend, size).entries[k] == en.entries[k]
  {
    var chunks := Chunks(keys, size);
    PartitionedChunk(chunks, en, i);
    MergeBatchesFromChunk(Empty(), chunks, en, backend, i, k);
  }

  /** Every text of `texts` translated by `tr`, which sees the key and the text. */
  function TranslateEach(texts: map<string, string>, tr: (string, string) -> string): (r: map<string, string>)
    ensures r.Keys == texts.Keys
  {
    map k | k in texts :: tr(k, texts[k])
  }

  /** A backend that translates each value on its own, by `tr`. */
  ghost predicate Pointwise(backend: Backend, tr: (string, string) -> string) {
    forall b :: Valid(b) ==> backend(b) == Some(Dict(b.order, TranslateEach(b.entries, tr)))
  }

  /** The source texts of `keys`, each translated by `tr`. */
  ghost function TranslatedTexts(keys: seq<string>, en: Dict, tr: (string, string) -> string): map<string, string> {
    map k | k in keys && k in en.entries :: tr(k, en.entries[k])
  }

  lemma PointwiseBatchResult(chunk: seq<string>, en: Dict, backend: Backend, tr: (string, string) -> string)
    requires NoDuplicates(chunk) && (forall k :: k in chunk ==> k in en.entries)
    requires WellFormed(backend) && Pointwise(backend, tr)
    ensures BatchResult(MakeBatch(chunk, en), backend).entries == TranslatedTexts(chunk, en, tr)
  {
    var batch := MakeBatch(chunk, en);
    assert backend(batch) == Some(Dict(batch.order, TranslateEach(batch.entries, tr)));
  }

  lemma TranslatedTextsConcat(a: seq<string>, b: seq<string>, en: Dict, tr: (string, string) -> string)
    ensures TranslatedTexts(a + b, en, tr) == TranslatedTexts(a, en, tr) + TranslatedTexts(b, en, tr)
  {
  }

  /** One batch merged into the results adds that batch's translations. */
  lemma PointwiseStep(acc: Dict, chunks: seq<seq<string>>, en: Dict, backend: Backend, tr: (string, string) -> string)
    requires Valid(acc) && WellFormed(backend) && Pointwise(backend, tr) && Partitioned(chunks, en) && chunks != []
    requires Partitioned(chunks[1..], en) && NoDuplicates(chunks[0]) && forall k :: k in chunks[0] ==> k in en.entries
    ensures var next := Assign(acc, BatchResult(MakeBatch(chunks[0], en), backend));
            && next.entries == acc.entries + TranslatedTexts(chunks[0], en, tr)
            && MergeBatches(acc, chunks, en, backend) == MergeBatches(next, chunks[1..], en, backend)
  {
    PartitionedSplit(chunks, en);
    PointwiseBatchResult(chunks[0], en, backend, tr);
  }

  lemma {:induction false} MergeBatchesPointwise(acc: Dict, chunks: seq<seq<string>>, en: Dict, backend: Backend,
                                                 tr: (string, string) -> string)
    requires Valid(acc) && WellFormed(backend) && Pointwise(backend, tr) && Partitioned(chunks, en)
    ensures MergeBatches(acc, chunks, en, backend).entries == acc.entries + TranslatedTexts(Flatten(chunks), en, tr)
    decreases |chunks|
  {
    if chunks == [] {
      assert TranslatedTexts(Flatten(chunks), en, tr) == map[];
    } else {
      PartitionedSplit(chunks, en);
      PointwiseStep(acc, chunks, en, backend, tr);
      var next := Assign(acc, BatchResult(MakeBatch(chunks[0], en), backend));
      MergeBatchesPointwise(next, chunks[1..], en, backend, tr);
      assert Flatten(chunks) == chunks[0] + Flatten(chunks[1..]);
      TranslatedTextsConcat(chunks[0], Flatten(chunks[1..]), en, tr);
      UnionAssociative(acc.entries, TranslatedTexts(chunks[0], en, tr), TranslatedTexts(Flatten(chunks[1..]), en, tr));
    }
  }

  /** With a backend that translates values independently, the results do
      not depend on where the batch boundaries fall: every selected key maps
      to its translation, whatever the batch size. */
  lemma RunBatchesIndependentOfBatchSize(keys: seq<string>, en: Dict, backend: Backend,
                                         tr: (string, string) -> string, size: nat)
    requires size > 0 && NoDuplicates(keys) && (forall k :: k in keys ==> k in en.entries)
    requires WellFormed(backend) && Pointwise(backend, tr)
    ensures RunBatches(keys, en, backend, size).entries == TranslatedTexts(keys, en, tr)
  {
    if keys == [] {
      assert TranslatedTexts(keys, en, tr) == map[];
    } else {
      var chunks := Chunks(keys, size);
      MergeBatchesPointwise(Empty(), chunks, en, backend, tr);
      assert Flatten(chunks) == keys;
      UnionEmptyLeft(TranslatedTexts(keys, en, tr));
    }
  }

  // ---------------------------------------------------------------------
  // One catalogue run (`translateFile`)
  // ---------------------------------------------------------------------

  /** A catalogue file as read at the start of a run. */
  datatype FileRead = Missing | Corrupt | Parsed(dict: Dict)

  ghost predicate WellFormedRead(f: FileRead) {
    f.Parsed? ==> Valid(f.dict)
  }

  /** The Persian catalogue: a missing or corrupt file counts as `{}`. */
  function ContentOrEmpty(f: FileRead): (d: Dict)
    requires WellFormedRead(f)
    ensures Valid(d)
  {
    if f.Parsed? then f.dict else Empty()
  }

  /** The baseline snapshot is used only when a baseline directory is given
      and its file exists and parses. */
  function BaselineOf(baselineDir: bool, baselineFile: FileRead): Option<Dict> {
    if baselineDir && baselineFile.Parsed? then Some(baselineFile.dict) else None
  }

  datatype BaselineWrite = BaselineWrite(fileName: string, content: Dict)

  /** The run's return value and the files it writes (`None`: not written). */
  datatype SyncOutcome = SyncOutcome(ok: bool, target: Option<Dict>, baseline: Option<BaselineWrite>)

  /** The translations of one run: the selected keys sent through `runBatches`. */
  function Translations(en: Dict, baseline: Option<Dict>, fa: Dict, backend: Backend): (r: Dict)
    requires Valid(en) && Valid(fa) && (baseline.Some? ==> Valid(baseline.value)) && WellFormed(backend)
    ensures Valid(r)
  {
    RunBatches(KeysToTranslate(en, baseline, fa), en, backend, BatchSize)
  }

  /** `out` is `fa` with `tr` merged in and every key outside `en` removed. */
  ghost predicate MergedAndPruned(out: Dict, fa: Dict, tr: Dict, en: Dict) {
    && (forall k :: k in out.entries <==> k in en.entries && (k in fa.entries || k in tr.entries))
    && (forall k :: k in out.entries && k in tr.entries ==> out.entries[k] == tr.entries[k])
    && (forall k :: k in out.entries && k !in tr.entries ==> out.entries[k] == fa.entries[k])
  }

  /** `translateFile`. A missing or unreadable English catalogue fails the
      run. When nothing needs translating the run succeeds at once, before
      merging, pruning or writing anything. Otherwise the translations
      override the Persian catalogue, keys the English catalogue lacks are
      deleted, the baseline (when a baseline directory is given) is replaced
      by the English catalogue, and the Persian catalogue is written. */
  function TranslateFile(enPath: string, enFile: FileRead, baselineDir: bool, baselineFile: FileRead,
                         faFile: FileRead, backend: Backend): (r: SyncOutcome)
    requires WellFormedRead(enFile) && WellFormedRead(baselineFile) && WellFormedRead(faFile)
    requires WellFormed(backend)
    ensures r.ok <==> enFile.Parsed?
    ensures r.target.Some? <==>
              enFile.Parsed? && KeysToTranslate(enFile.dict, BaselineOf(baselineDir, baselineFile), ContentOrEmpty(faFile)) != []
    ensures r.baseline.Some? <==> r.target.Some? && baselineDir
    ensures r.baseline.Some? ==> r.baseline.value == BaselineWrite(BaselineFileName(enPath), enFile.dict)
    ensures r.target.Some? ==>
              MergedAndPruned(r.target.value, ContentOrEmpty(faFile),
                              Translations(enFile.dict, BaselineOf(baselineDir, baselineFile), ContentOrEmpty(faFile), backend),
                              enFile.dict)
  {
    if !enFile.Parsed? then SyncOutcome(false, None, None)
    else
      var en := enFile.dict;
      var fa := ContentOrEmpty(faFile);
      var baseline := BaselineOf(baselineDir, baselineFile);
      var keys := KeysToTranslate(en, baseline, fa);
      if keys == [] then SyncOutcome(true, None, None)
      else
        var translated := Translations(en, baseline, fa, backend);
        var target := Prune(Assign(fa, translated), en);
        var baselineWrite := if baselineDir then Some(BaselineWrite(BaselineFileName(enPath), en)) else None;
        SyncOutcome(true, Some(target), baselineWrite)
  }

  /** First run with a backend that answers every key of its batch (or fails):
      the written Persian catalogue has exactly the English keys. */
  lemma FirstRunCoversSource(enPath: string, en: Dict, faFile: FileRead, backend: Backend, baselineDir: bool, baselineFile: FileRead)
    requires Valid(en) && WellFormedRead(faFile) && WellFormedRead(baselineFile)
    requires WellFormed(backend) && Complete(backend)
    requires BaselineOf(baselineDir, baselineFile).None?
    ensures var r := TranslateFile(enPath, Parsed(en), baselineDir, baselineFile, faFile, backend);
            r.target.Some? ==> r.target.value.entries.Keys == en.entries.Keys
  {
    var fa := ContentOrEmpty(faFile);
    var keys := KeysToTranslate(en, None, fa);
    RunBatchesKeys(keys, en, backend, BatchSize);
  }

  /** With the baseline rule, a key whose English text is unchanged and whose
      Persian text already differs from it keeps its Persian text. */
  lemma TranslatedUnchangedKeyKept(enPath: string, en: Dict, baseline: Dict, fa: Dict, backend: Backend, k: string)
    requires Valid(en) && Valid(baseline) && Valid(fa) && WellFormed(backend) && Confined(backend)
    requires k in en.entries && k in baseline.entries && baseline.entries[k] == en.entries[k]
    requires k in fa.entries && fa.entries[k] != en.entries[k]
    ensures var r := TranslateFile(enPath, Parsed(en), true, Parsed(baseline), Parsed(fa), backend);
            r.target.Some? ==> k in r.target.value.entries && r.target.value.entries[k] == fa.entries[k]
  {
    var keys := KeysToTranslate(en, Some(baseline), fa);
    RunBatchesKeys(keys, en, backend, BatchSize);
  }

  /** Re-running on an unchanged English catalogue, with no Persian entry
      still holding English text, writes nothing. */
  lemma UnchangedRerunWritesNothing(enPath: string, en: Dict, fa: Dict, backend: Backend)
    requires Valid(en) && Valid(fa) && WellFormed(backend)
    requires forall k :: k in fa.entries && k in en.entries ==> fa.entries[k] != en.entries[k]
    ensures TranslateFile(enPath, Parsed(en), true, Parsed(en), Parsed(fa), backend) == SyncOutcome(true, None, None)
  {
    var keys := SelectWithBaseline(en, en, fa);
    HeadIsMember(keys);
  }

  // ---------------------------------------------------------------------
  // Worked scenarios
  // ---------------------------------------------------------------------

  /** The stub's translation: "Donya" for key `b`, every other value echoed. */
  function StubTranslation(k: string, v: string): string {
    if k == "b" then "Donya" else v
  }

  /** A backend stub that translates each value by `StubTranslation`. */
  function StubBackend(b: Dict): Option<Dict> {
    Some(Dict(b.order, TranslateEach(b.entries, StubTranslation)))
  }

  /** A key new since the baseline is the only one selected, and the stub
      translates it. */
  lemma ScenarioNewKey(en: Dict, baseline: Dict, fa: Dict)
    requires en == Dict(["a", "b"], map["a" := "Hello", "b" := "World"])
    requires baseline == Dict(["a"], map["a" := "Hello"])
    requires fa == Dict(["a"], map["a" := "Salaam"])
    ensures Valid(en) && Valid(baseline) && Valid(fa) && WellFormed(StubBackend)
    ensures SelectWithBaseline(en, baseline, fa) == ["b"]
    ensures Translations(en, Some(baseline), fa, StubBackend).entries == map["b" := "Donya"]
  {
    ScenarioNewKeySelection(en, baseline, fa);
    StubIsPointwise();
    RunBatchesIndependentOfBatchSize(["b"], en, StubBackend, StubTranslation, BatchSize);
    ScenarioNewKeyTranslation(en);
  }

  /** Continuing the scenario above: the translation of the new key is added
      next to the existing Persian text, whatever the catalogue's path. */
  lemma ScenarioNewKeyWrites(enPath: string, en: Dict, baseline: Dict, fa: Dict)
    requires en == Dict(["a", "b"], map["a" := "Hello", "b" := "World"])
    requires baseline == Dict(["a"], map["a" := "Hello"])
    requires fa == Dict(["a"], map["a" := "Salaam"])
    ensures var r := TranslateFile(enPath, Parsed(en), true, Parsed(baseline), Parsed(fa), StubBackend);
            && r.target.Some?
            && r.target.value.entries == map["a" := "Salaam", "b" := "Donya"]
            && r.baseline == Some(BaselineWrite(BaselineFileName(enPath), en))
  {
    ScenarioNewKey(en, baseline, fa);
    assert en.entries.Keys == {"a", "b"};
    assert KeysToTranslate(en, BaselineOf(true, Parsed(baseline)), ContentOrEmpty(Parsed(fa))) == ["b"];
    var translated := Translations(en, Some(baseline), fa, StubBackend);
    var r := TranslateFile(enPath, Parsed(en), true, Parsed(baseline), Parsed(fa), StubBackend);
    ScenarioNewKeyMerge(r.target.value, fa, translated, en);
  }

  lemma ScenarioNewKeySelection(en: Dict, baseline: Dict, fa: Dict)
    requires en == Dict(["a", "b"], map["a" := "Hello", "b" := "World"])
    requires baseline == Dict(["a"], map["a" := "Hello"])
    requires fa == Dict(["a"], map["a" := "Salaam"])
    ensures Valid(en) && Valid(baseline) && Valid(fa)
    ensures SelectWithBaseline(en, baseline, fa) == ["b"]
  {
    var keys := SelectWithBaseline(en, baseline, fa);
    assert "a" !in keys && "b" in keys;
    SubsequenceMembers(keys, en.order);
    assert forall x :: x in keys ==> x == "b";
    assert |keys| == 1;
  }

  lemma ScenarioNewKeyTranslation(en: Dict)
    requires en == Dict(["a", "b"], map["a" := "Hello", "b" := "World"])
    ensures TranslatedTexts(["b"], en, StubTranslation) == map["b" := "Donya"]
  {
  }

  lemma ScenarioNewKeyMerge(out: Dict, fa: Dict, tr: Dict, en: Dict)
    requires en.entries.Keys == {"a", "b"}
    requires fa.entries == map["a" := "Salaam"] && tr.entries == map["b" := "Donya"]
    requires MergedAndPruned(out, fa, tr, en)
    ensures out.entries == map["a" := "Salaam", "b" := "Donya"]
  {
    assert out.entries.Keys == {"a", "b"};
  }

  lemma StubIsPointwise()
    ensures WellFormed(StubBackend) && Pointwise(StubBackend, StubTranslation)
  {
    forall b | Valid(b) && StubBackend(b).Some? ensures Valid(StubBackend(b).value) {
      StubAnswerValid(b);
    }
    StubTranslatesEachValue();
  }

  lemma StubTranslatesEachValue()
    ensures Pointwise(StubBackend, StubTranslation)
  {
    forall b | Valid(b)
      ensures StubBackend(b) == Some(Dict(b.order, TranslateEach(b.entries, StubTranslation)))
    {
    }
  }

  lemma StubAnswerValid(b: Dict)
    requires Valid(b)
    ensures Valid(StubBackend(b).value)
  {
    var d := StubBackend(b).value;
    assert d.order == b.order;
    assert forall k :: k in d.entries <==> k in b.entries;
  }

  /** First run, Persian text equal to the English: the key is selected as untranslated. */
  lemma ScenarioUntranslatedCopy()
    ensures var en := Dict(["a"], map["a" := "Hello"]);
            SelectWithoutBaseline(en, en) == ["a"]
  {
    var en := Dict(["a"], map["a" := "Hello"]);
    var keys := SelectWithoutBaseline(en, en);
    assert "a" in keys;
    assert |keys| <= 1;
  }

  /** Nothing to translate: the run returns before pruning, so a key dropped
      from the English catalogue stays in the Persian one, and the baseline
      is not refreshed. */
  lemma ScenarioNothingSelectedSkipsPrune()
    ensures var en := Dict(["a"], map["a" := "Hi"]);
            var baseline := Dict(["a", "b"], map["a" := "Hi", "b" := "Bye"]);
            var fa := Dict(["a", "b"], map["a" := "X", "b" := "Y"]);
            TranslateFile("lang/front/en.json", Parsed(en), true, Parsed(baseline), Parsed(fa), StubBackend)
              == SyncOutcome(true, None, None)
  {
    var en := Dict(["a"], map["a" := "Hi"]);
    var baseline := Dict(["a", "b"], map["a" := "Hi", "b" := "Bye"]);
    var fa := Dict(["a", "b"], map["a" := "X", "b" := "Y"]);
    var keys := SelectWithBaseline(en, baseline, fa);
    HeadIsMember(keys);
  }
}

/** The baseline snapshot's file name, `<parentDir>-<basename>.json`,
    computed with POSIX path rules. */
module BaselinePath {
  import Wrappers
  import opened Text

  /** The directory part and the last component of a path: the text before
      and after the last `/` (`None` when there is no `/`). */
  function SplitLast(p: string): (r: (Wrappers.Option<string>, string))
    ensures '/' !in r.1
    ensures r.0.None? ==> r.1 == p
    ensures r.0.Some? ==> p == r.0.value + "/" + r.1
  {
    if p == [] then (Wrappers.None, [])
    else if p[|p| - 1] == '/' then (Wrappers.Some(p[..|p| - 1]), [])
    else
      var (dir, base) := SplitLast(p[..|p| - 1]);
      assert p == p[..|p| - 1] + [p[|p| - 1]];
      (dir, base + [p[|p| - 1]])
  }

  /** `path.basename(path.dirname(p))` for a normalised path (no `//` and
      no trailing `/`): the name of the directory holding the file, that is
      the last component of the directory part; `.` for a bare file name. */
  function ParentName(p: string): (r: string)
    ensures '/' !in r
    ensures SplitLast(p).0.None? ==> r == "."
    ensures SplitLast(p).0.Some? ==> var dir := SplitLast(p).0.value; dir == r || EndsWith(dir, "/" + r)
  {
    match SplitLast(p).0
    case None => "."
    case Some(dir) =>
      var r := SplitLast(dir).1;
      assert SplitLast(dir).0.Some? ==> dir[|dir| - |"/" + r|..] == "/" + r;
      r
  }

  /** `path.basename(p, '.json')` for a normalised path: the last component
      without a trailing `.json`; a component that is exactly `.json` keeps
      it, and the whole path `.json` gives the empty string. */
  function FileStem(p: string): (r: string)
    ensures '/' !in r
    ensures p == ".json" ==> r == ""
    ensures p != ".json" && EndsWith(SplitLast(p).1, ".json") && |SplitLast(p).1| > |".json"| ==> SplitLast(p).1 == r + ".json"
    ensures p != ".json" && !(EndsWith(SplitLast(p).1, ".json") && |SplitLast(p).1| > |".json"|) ==> r == SplitLast(p).1
  {
    var base := SplitLast(p).1;
    if p == ".json" then ""
    else if EndsWith(base, ".json") && |base| > |".json"| then
      assert base == base[..|base| - |".json"|] + ".json";
      base[..|base| - |".json"|]
    else base
  }

  /** `parent-stem.json` begins with `parent-` and ends in `.json`. */
  lemma NameAffixes(parent: string, stem: string)
    ensures StartsWith(parent + ("-" + stem + ".json"), parent + "-")
    ensures EndsWith(parent + ("-" + stem + ".json"), ".json")
  {
    var r := parent + ("-" + stem + ".json");
    assert r[..|parent| + 1] == parent + "-";
    assert r[|r| - |".json"|..] == ".json";
  }

  /** `${parentDir}-${fileName}.json`. */
  function BaselineFileName(enPath: string): (r: string)
    ensures r == ParentName(enPath) + ("-" + FileStem(enPath) + ".json")
    ensures EndsWith(r, ".json")
    ensures StartsWith(r, ParentName(enPath) + "-")
  {
    var parent := ParentName(enPath);
    var stem := FileStem(enPath);
    NameAffixes(parent, stem);
    parent + ("-" + stem + ".json")
  }

  /** A path without a `/` is a bare file name. */
  lemma {:induction false} SplitLastNoSlash(p: string)
    requires '/' !in p
    ensures SplitLast(p) == (Wrappers.None, p)
    decreases |p|
  {
    if p != [] {
      assert p[|p| - 1] in p;
      assert forall c :: c in p[..|p| - 1] ==> c in p;
      SplitLastNoSlash(p[..|p| - 1]);
      assert p == p[..|p| - 1] + [p[|p| - 1]];
    }
  }

  /** `dir` + `parent/file` splits before `file`. */
  lemma SplitOfPath(dir: string, parent: string, file: string)
    requires '/' !in file
    ensures SplitLast(dir + parent + "/" + file) == (Wrappers.Some(dir + parent), file)
  {
    assert dir + parent + "/" + file == (dir + parent) + "/" + file;
    SplitLastUnique(dir + parent + "/" + file, dir + parent, file);
  }

  /** The last component of `dir` + `parent`, where `dir` is empty or ends in `/`, is `parent`. */
  lemma SplitOfDir(dir: string, parent: string)
    requires '/' !in parent
    requires dir == [] || dir[|dir| - 1] == '/'
    ensures SplitLast(dir + parent).1 == parent
  {
    if dir == [] {
      assert dir + parent == parent;
      SplitLastNoSlash(parent);
    } else {
      var d := dir[..|dir| - 1];
      assert dir + parent == d + "/" + parent;
      SplitLastUnique(dir + parent, d, parent);
    }
  }

  /** The parent name of `dir` + `parent/file` is `parent`. */
  lemma ParentOfPath(dir: string, parent: string, file: string)
    requires '/' !in parent && '/' !in file
    requires dir == [] || dir[|dir| - 1] == '/'
    ensures ParentName(dir + parent + "/" + file) == parent
  {
    SplitOfPath(dir, parent, file);
    SplitOfDir(dir, parent);
  }

  /** The stem of `dir` + `parent/file` is `file` without a trailing `.json`. */
  lemma StemOfPath(dir: string, parent: string, file: string)
    requires '/' !in parent && '/' !in file
    requires dir == [] || dir[|dir| - 1] == '/'
    ensures FileStem(dir + parent + "/" + file)
            == if EndsWith(file, ".json") && |file| > |".json"| then file[..|file| - |".json"|] else file
  {
    var p := dir + parent + "/" + file;
    SplitOfPath(dir, parent, file);
    assert p[|dir + parent|] == '/';
    assert p != ".json";
  }

  /** For `dir` + `parent/file`, where `dir` is empty or ends in `/`, the
      baseline is `parent-<file without .json>.json`. */
  lemma BaselineNameOfPath(dir: string, parent: string, file: string)
    requires '/' !in parent && '/' !in file
    requires dir == [] || dir[|dir| - 1] == '/'
    ensures BaselineFileName(dir + parent + "/" + file)
            == parent + ("-" + (if EndsWith(file, ".json") && |file| > |".json"| then file[..|file| - |".json"|] else file) + ".json")
  {
    ParentOfPath(dir, parent, file);
    StemOfPath(dir, parent, file);
  }

  /** The split at the last `/` is the only one whose file part has no `/`. */
  lemma SplitLastUnique(p: string, dir: string, base: string)
    requires '/' !in base && p == dir + "/" + base
    ensures SplitLast(p) == (Wrappers.Some(dir), base)
  {
    var (d, b) := SplitLast(p);
    assert p[|dir|] == '/';
    if d.Some? {
      forall i | |d.value| < i < |p| ensures p[i] != '/' {
        assert p[i] == b[i - |d.value| - 1];
      }
      forall i | |dir| < i < |p| ensures p[i] != '/' {
        assert p[i] == base[i - |dir| - 1];
      }
      assert p[|d.value|] == '/';
      assert |b| == |base|;
      assert b == p[|p| - |b|..] == base;
      assert d.value == p[..|d.value|] == dir;
    }
  }

  /** A catalogue `stem.json` keeps its stem in the baseline name. */
  lemma BaselineNameOfStem(dir: string, parent: string, stem: string)
    requires '/' !in parent && '/' !in stem && stem != []
    requires dir == [] || dir[|dir| - 1] == '/'
    ensures BaselineFileName(dir + parent + "/" + (stem + ".json")) == parent + ("-" + stem + ".json")
  {
    var file := stem + ".json";
    assert '/' !in file by {
      forall i | 0 <= i < |file| ensures file[i] != '/' {
        if i < |stem| { assert file[i] == stem[i]; } else { assert file[i] == ".json"[i - |stem|]; }
      }
    }
    assert file[|file| - |".json"|..] == ".json";
    assert file[..|file| - |".json"|] == stem;
    BaselineNameOfPath(dir, parent, file);
  }

  /** The catalogue `parent/en.json` under the language directory gets the
      baseline file `parent-en.json`. */
  lemma EnCatalogBaseline(langDir: string, parent: string)
    requires langDir == [] || langDir[|langDir| - 1] == '/'
    requires '/' !in parent
    ensures BaselineFileName(langDir + parent + "/en.json") == parent + "-en.json"
  {
    assert langDir + parent + "/en.json" == langDir + parent + "/" + ("en" + ".json") by {}
    assert parent + ("-" + "en" + ".json") == parent + "-en.json" by {}
    BaselineNameOfStem(langDir, parent, "en");
  }

  lemma MainCataloguePaths(langDir: string)
    ensures langDir + "front/en.json" == langDir + "front" + "/en.json"
    ensures langDir + "back/en.json" == langDir + "back" + "/en.json"
    ensures "front" + "-en.json" == "front-en.json"
    ensures "back" + "-en.json" == "back-en.json"
  {
  }

  /** The front and back English catalogues, `front/en.json` and
      `back/en.json` under the language directory, get the baseline files
      `front-en.json` and `back-en.json`. */
  lemma FrontAndBackBaselinesDiffer(langDir: string)
    requires langDir == [] || langDir[|langDir| - 1] == '/'
    ensures BaselineFileName(langDir + "front/en.json") == "front-en.json"
    ensures BaselineFileName(langDir + "back/en.json") == "back-en.json"
  {
    MainCataloguePaths(langDir);
    EnCatalogBaseline(langDir, "front");
    EnCatalogBaseline(langDir, "back");
  }

  lemma SameSuffixSamePrefix(a: string, b: string, tail: string)
    requires a + tail == b + tail
    ensures a == b
  {
    assert |a| == |b|;
    assert a == (a + tail)[..|a|];
    assert b == (b + tail)[..|b|];
  }

  /** Two catalogues with the same file name in differently named directories
      never share a baseline file. */
  lemma BaselineNamesDistinguishDirectories(p: string, q: string)
    requires FileStem(p) == FileStem(q) && ParentName(p) != ParentName(q)
    ensures BaselineFileName(p) != BaselineFileName(q)
  {
    var tail := "-" + FileStem(p) + ".json";
    var a, b := ParentName(p), ParentName(q);
    assert BaselineFileName(p) == a + tail && BaselineFileName(q) == b + tail;
    if a + tail == b + tail {
      SameSuffixSamePrefix(a, b, tail);
    }
  }
}
